=== FILE: README.md ===
# AEGIS ledger core in Dafny

A model of the ledger core of the AEGIS banking backend (Express + SQLite),
written as pure state transitions over the whole database, with the
properties the controllers promise proved about it.

The database is one immutable `Store` value (`Schema`): one sequence per
SQL table in rowid order, and one AUTOINCREMENT counter per table. Every
controller action becomes a function of the store, the caller's user id and
the request's fields, and returns either the new store or one of the error
codes the controller answers with (`Outcomes.Error`). An error carries no
store, so a refused request changes nothing. Amounts are integer cents
throughout; the route validators become preconditions (an amount of at
least one cent, a goal target of at least 100 cents).

Modules follow the controllers:

- `Transactions`: `transfer`, `requestMoney`, the filtered and paginated
  listing and the single-entry lookup.
- `Accounts`: `getAccount` and the monthly summary (`getSummary`).
- `Stats`: `getStats`, spending by category since the month start and
  income/expenses of the six most recent months.
- `Savings`: goals, `deposit`, `withdraw`, `deleteGoal`, the COALESCE update
  and the `progress` field.
- `Cards`: the card status machine (active ⇄ frozen, blocked for good), the
  COALESCE update and new virtual cards.
- `Notifications`: the feed with its unread count, mark one / all as read.
- `Referrals`: the referral code shown, rewards earned, one invitation per
  address.
- `Registration`: `register`, with the age and minor rules.
- `Formats` and `Text`: the identifiers built from random draws (IBAN,
  masked card number, expiry, referral code) and the JavaScript string
  functions they use.
- `Pagination` and `Seqs`: LIMIT/OFFSET, ORDER BY, COUNT, SUM and the
  page arithmetic.
- `Invariants`: properties relating several operations (conservation of
  money, non-negative balances and savings, summary and stats agreement).
- `Scenarios`: worked examples on the demo data of `src/seed/seed.js`.

The model follows the code as written; in particular:

- Only `transfer` checks the account status. Deposits, withdrawals,
  request-money and goal deletion work on frozen and closed accounts too.
- `deleteGoal` refunds the goal's amount to the balance without writing a
  ledger entry and outside any database transaction.
- Failures are not all typed results: dereferencing a missing account or
  user row, or violating a UNIQUE constraint, throws, and the error handler
  answers 500. The model reports these as `Internal`. Inside
  `db.transaction` (withdraw) the throw rolls the writes back; in
  `register` the user row is already inserted when the account insert
  fails, and the model keeps it.
- The two paginated listings use the page size as the code computes it:
  a negative `limit` request is kept, so SQLite returns every match on one
  page and the page count reported is not positive (see "Findings"). The
  corrected rule is modelled beside it (`Pagination.PaginateCorrected`).

Random draws, the clock ("now", the current month's window, the year, today's
date) and the calendar month of a timestamp are parameters.

## Model

| member | source | states |
|---|---|---|
| `Outcomes.Truthy` | src/controllers/transaction.controller.js:125 | `x \|\| default` on an optional string: missing and empty both fall back, any other string is kept |
| `Seqs.FirstIndex` | src/controllers/savings.controller.js:57 | `.get()` returns the first row in rowid order that matches the WHERE clause, and nothing exactly when no row matches |
| `Seqs.Filter` | src/controllers/transaction.controller.js:24-42 | a WHERE clause keeps exactly the rows that satisfy it, and never more rows than it was given |
| `Seqs.SortDesc` | src/controllers/transaction.controller.js:47 | ORDER BY ... DESC returns the same rows (as a multiset) with the key non-increasing |
| `Seqs.Window` | src/controllers/transaction.controller.js:47 | LIMIT/OFFSET as SQLite applies them: a negative offset counts as 0, a negative limit means no limit, otherwise at most `limit` rows starting at `offset` |
| `Seqs.CountUpdate` | src/controllers/notification.controller.js:41 | replacing one row changes a COUNT by exactly what the old and the new row contribute |
| `Seqs.SumIntUpdate` | src/controllers/savings.controller.js:125-126 | replacing one row changes a column total by the difference of that row |
| `Seqs.SumIntFilterOne` | src/controllers/savings.controller.js:201 | a DELETE that removes exactly one row lowers a column total by that row |
| `Schema.IncomeExpensePartition` | src/controllers/account.controller.js:48-55 | every entry type is income or expense but never both |
| `Schema.AccountOf` | src/controllers/transaction.controller.js:94 | the caller's account is the first account row with their user id, and missing exactly when there is none |
| `Schema.GoalOf` | src/controllers/savings.controller.js:57 | a goal is found only by id AND owner, so another user's goal is indistinguishable from a missing one |
| `Schema.CardOf` | src/controllers/card.controller.js:85 | a card is found only by id AND the caller's account id |
| `Schema.NotificationOf` | src/controllers/notification.controller.js:33 | a notification is found only by id AND owner |
| `Schema.EntryOf` | src/controllers/transaction.controller.js:74 | an entry is found only by id AND the caller's account id |
| `Schema.InvitationOf` | src/controllers/referral.controller.js:36 | the invitation of an address by a referrer, missing exactly when that pair was never invited |
| `Schema.FirstReferralOf` | src/controllers/referral.controller.js:12 | the caller's first referral in rowid order, none exactly when they have none |
| `Schema.UserByEmail` | src/controllers/auth.controller.js:13 | a user with the given email, missing exactly when no row has it |
| `Text.DecimalString` | src/controllers/card.controller.js:51 | `String(n)` of a non-negative integer: digits only, no leading zero |
| `Text.DecimalRoundTrip` | src/controllers/card.controller.js:51 | reading back the digits of `String(n)` gives n |
| `Text.LastTwoDigits` | src/controllers/card.controller.js:55 | the last two characters of `String(n)`, n ≥ 10, denote n mod 100 |
| `Text.PadStart` | src/controllers/card.controller.js:51 | `padStart`: the string ends the result, only fill characters precede it, and the length is the larger of the two |
| `Text.ZeroPadded` | src/controllers/card.controller.js:51 | `String(n).padStart(w, '0')` for n < 10^w has exactly w digits that read back as n |
| `Text.TakeAtMost` | src/controllers/referral.controller.js:45 | `slice(0, n)` is the prefix of length min(n, length), counted in code points (see "Left out") |
| `Text.TakeLast` | src/controllers/card.controller.js:55 | `slice(-n)` for n ≥ 1 is the suffix of length min(n, length) |
| `Text.Upper` | src/controllers/referral.controller.js:45 | `toUpperCase` maps each character on its own and keeps the length |
| `Pagination.PageNumber` | src/controllers/transaction.controller.js:20 | the page is the requested number, or 1 when missing or 0 |
| `Pagination.PageLimitAsWritten` | src/controllers/transaction.controller.js:21 | the limit as the code computes it: 20 when missing or 0, capped at 100, but a negative request is kept |
| `Pagination.NegativeLimitLiftsCap` | src/controllers/transaction.controller.js:21-22 | with a negative limit request, the first page of the listing holds every row, more than 100 of them, and the page count reported is not positive |
| `Pagination.PageLimit` | src/controllers/transaction.controller.js:21 | the corrected page size, evidently intended by the `Math.min` cap: always in [1, 100], 20 when missing or not positive, the request when it is in range, 100 above |
| `Pagination.PageLimitMatchesAsWritten` | src/controllers/transaction.controller.js:21 | the corrected page size equals the one the code computes exactly when the request is missing or not negative |
| `Pagination.PageCount` | src/controllers/transaction.controller.js:60 | `ceil(total / limit)`: enough pages for every row, no empty last page, 0 pages exactly when there are no rows |
| `Pagination.ReportedPages` | src/controllers/transaction.controller.js:60 | `Math.ceil(total / limit)` for any non-zero limit: the page count for a positive limit, and for a negative one the non-positive p with p·limit ≤ total < (p − 1)·limit |
| `Pagination.Paginate` | src/controllers/transaction.controller.js:20-61 | the page is the LIMIT/OFFSET window at `(page - 1) * limit` of the ordered result, with the limit as the code computes it: at most `limit` rows for a positive limit, the whole result from page 1 on for a negative one; total and pages as reported |
| `Pagination.RowOnItsPage` | src/controllers/transaction.controller.js:22 | row k of the ordered result appears on page k / limit + 1 at position k mod limit, and that page is within the page count |
| `Pagination.NoLimitIsEverything` | src/controllers/transaction.controller.js:22-47 | from page 1 on, a negative limit makes the offset non-positive and lifts the bound, so the window is the whole result |
| `Pagination.PaginateCorrected` | src/controllers/transaction.controller.js:20-61 | the corrected listing page: never more than 100 rows, the same window otherwise, and at least one page exactly when there is a row |
| `Pagination.CorrectedAgreesUnlessNegative` | src/controllers/transaction.controller.js:21 | the corrected pagination and the code's give the same page and figures exactly when the limit request is missing or not negative |
| `Transactions.Matching` | src/controllers/transaction.controller.js:24-42 | the listing's WHERE clause: the account, then each non-empty type, category and date filter |
| `Transactions.Ordered` | src/controllers/transaction.controller.js:47 | ORDER BY created_at DESC over the matches: the same entries, created_at non-increasing (the order of the stored text, see "Left out") |
| `Transactions.ListTransactions` | src/controllers/transaction.controller.js:11-61 | ACCOUNT_NOT_FOUND without an account and success exactly when it exists; the page is the LIMIT/OFFSET window of the matches newest first, every item the caller's and passing every filter; at most `limit` items for a positive limit and every match for a negative one; page, limit, total and pages as the code computes them |
| `Transactions.EveryMatchOnItsPage` | src/controllers/transaction.controller.js:20-48 | with a page size l in 1..100, the k-th newest match is item k mod l of page k / l + 1, a page within the count reported |
| `Transactions.GetTransaction` | src/controllers/transaction.controller.js:65-80 | an entry is returned only if it belongs to the caller's account; otherwise TRANSACTION_NOT_FOUND |
| `Transactions.Transfer` | src/controllers/transaction.controller.js:91-134 | status checked before funds; succeeds exactly on an active account holding at least the amount; lowers that balance by the amount, appends one completed transfer_out entry with the IBAN and one unread `transaction` notification to the sender titled `Virement envoyé` with the message `Virement de <amount>€ effectué`, and touches nothing else |
| `Transactions.TransferMessage` | src/controllers/transaction.controller.js:131 | the notification text is `Virement de `, then the amount exactly as the request spelled it, then `€ effectué` |
| `Transactions.RequestMoney` | src/controllers/transaction.controller.js:149-166 | appends one pending transfer_in entry in EUR naming the email, with the request's description or the default label, and moves no money; only the entries and their id counter change besides |
| `Accounts.GetAccount` | src/controllers/account.controller.js:7-27 | the caller's account, or ACCOUNT_NOT_FOUND |
| `Accounts.GetSummary` | src/controllers/account.controller.js:30-57 | the balance with the completed expense and income totals of the caller's account whose created_at lies between the two window bounds (compared as stored text, see "Left out") |
| `Accounts.SummaryOfAppend` | src/controllers/account.controller.js:45-57 | one more entry adds exactly its own share to each monthly total |
| `Accounts.EntryCountsOnce` | src/controllers/account.controller.js:48-55 | an entry counts towards at most one total, and a pending one towards neither |
| `Accounts.EmptyMonth` | src/controllers/account.controller.js:45-57 | with no completed entry in the window both totals are 0 (the COALESCE) |
| `Accounts.MonthExpenses` | src/controllers/account.controller.js:45-50 | each completed debit or transfer_out of the account in the window counts in full, and the total is 0 exactly when no entry contributes |
| `Accounts.MonthIncome` | src/controllers/account.controller.js:52-57 | each completed credit, transfer_in or cashback of the account in the window counts in full, and the total is 0 exactly when no entry contributes |
| `Stats.SpentCategories` | src/controllers/transaction.controller.js:190-195 | the groups of the spending query: distinct categories, each with a spending entry, covering every spending entry |
| `Stats.ByCategory` | src/controllers/transaction.controller.js:190-197 | one row per spent category with its SUM and a positive COUNT of completed debit/transfer_out entries since the month start, every such category present, ordered by total descending |
| `Stats.BookedMonths` | src/controllers/transaction.controller.js:200-208 | the months with a completed entry of the account, distinct and newest first, none missing |
| `Stats.RecentMonths` | src/controllers/transaction.controller.js:208-209 | at most six months, newest first; a booked month left out is older than all six shown |
| `Stats.MonthRowsOf` | src/controllers/transaction.controller.js:201-204 | each month's row sums completed income and expense entries of that month |
| `Stats.Monthly` | src/controllers/transaction.controller.js:200-210 | the monthly rows are exactly those of the recent months, in the same order |
| `Stats.GetStats` | src/controllers/transaction.controller.js:177-210 | ACCOUNT_NOT_FOUND without an account, otherwise both aggregates of the caller's account |
| `Savings.ProgressIsNearestTenth` | src/controllers/savings.controller.js:18 | progress, in tenths of a percent, is the nearest tenth of current / target × 100, half-way rounded up |
| `Savings.Progress` | src/controllers/savings.controller.js:18 | no number (NaN or Infinity in JavaScript) exactly for a zero target; 0.0 % for an empty goal and 100.0 % for a goal holding its target |
| `Savings.GetGoals` | src/controllers/savings.controller.js:22-28 | every goal of the caller and no other, newest first, each with its progress |
| `Savings.CreateGoal` | src/controllers/savings.controller.js:31-46 | a new goal of the caller holding 0, with icon, color and deadline defaulted when empty |
| `Savings.Patched` | src/controllers/savings.controller.js:67-84 | supplied fields replace, omitted ones stay; name, icon, color and deadline treat empty as omitted; amount saved and owner never change |
| `Savings.UpdateGoal` | src/controllers/savings.controller.js:56-86 | GOAL_NOT_FOUND for a goal not the caller's; otherwise only that goal changes |
| `Savings.PatchIdempotent` | src/controllers/savings.controller.js:67-86 | applying an update twice is applying it once |
| `Savings.Deposit` | src/controllers/savings.controller.js:96-131 | GOAL_NOT_FOUND, then ACCOUNT_NOT_FOUND, then INSUFFICIENT_FUNDS; on success the balance falls and the goal rises by the amount, with no cap at the target, and one completed debit entry in EUR, category other, with no counterpart, is logged under the next entry id |
| `Savings.Withdraw` | src/controllers/savings.controller.js:144-173 | GOAL_NOT_FOUND, then INSUFFICIENT_SAVINGS; on success the goal falls and the balance rises by the amount and one completed credit entry in EUR, category other, with no counterpart, is logged under the next entry id |
| `Savings.WithoutGoal` | src/controllers/savings.controller.js:201 | the DELETE removes every row with that id and keeps the rest |
| `Savings.DeleteGoal` | src/controllers/savings.controller.js:186-201 | GOAL_NOT_FOUND for a goal not the caller's; on the caller's goal success unless a non-empty goal has no account to refund (a 500); the balance rises by exactly what the goal held, no entry is logged and the goal is gone |
| `Cards.GetCards` | src/controllers/card.controller.js:25-34 | exactly the cards of the caller's account, each once, in insertion order |
| `Cards.CreateCard` | src/controllers/card.controller.js:42-68 | one active virtual card with default limits and both switches on, and one unread security notification with the creation title and message |
| `Cards.Owned` | src/controllers/card.controller.js:77-91 | ACCOUNT_NOT_FOUND, then CARD_NOT_FOUND for a card not on the caller's account |
| `Cards.OwnedStable` | src/controllers/card.controller.js:85 | changing a card's status or settings does not change which card an id reaches |
| `Cards.PatchedCard` | src/controllers/card.controller.js:95-107 | supplied limits and switches replace, omitted ones stay; status, type, number and expiry untouched |
| `Cards.UpdateCard` | src/controllers/card.controller.js:76-108 | only that card changes; no notification |
| `Cards.FreezeCard` | src/controllers/card.controller.js:118-143 | CARD_BLOCKED on a blocked card and success on any other owned card; frozen becomes active and active frozen, nothing else changes |
| `Cards.BlockCard` | src/controllers/card.controller.js:153-178 | the card becomes blocked from any status, with one unread security notification with the blocking title and message |
| `Cards.FreezeTwiceRestores` | src/controllers/card.controller.js:142-143 | two successive freezes give back the store as it was |
| `Cards.BlockedIsFinal` | src/controllers/card.controller.js:135-170 | a blocked card cannot be frozen, can be blocked again, and an update keeps it blocked |
| `Formats.MaskedNumber` | src/controllers/card.controller.js:51-52 | `**** **** **** ` then four digits that read back as the draw |
| `Formats.MaskedNumberInjective` | src/controllers/card.controller.js:51-52 | different draws give different masked numbers |
| `Formats.Expiry` | src/controllers/card.controller.js:53-55 | `MM/YY` with MM in 01..12 one more than the draw, and YY the last two digits of year + 3 |
| `Formats.Iban` | src/controllers/auth.controller.js:50-51 | `BE68 ` and four groups of four digits separated by single spaces, 24 characters |
| `Formats.IbanRoundTrip` | src/controllers/auth.controller.js:50-51 | the draw is read back from the sixteen digits of the IBAN |
| `Formats.IbanInjective` | src/controllers/auth.controller.js:50-51 | different draws give different IBANs |
| `Formats.ReferralCode` | src/controllers/referral.controller.js:45 | `AEGIS-`, at most three upper-cased letters of the first name, then the draw in decimal |
| `Notifications.GetNotifications` | src/controllers/notification.controller.js:3-29 | the page is the LIMIT/OFFSET window of the caller's notifications newest first; at most `limit` for a positive limit, all of them for a negative one; total and unread count over all of theirs, unread never above total; page figures as the code computes them |
| `Notifications.Mine` | src/controllers/notification.controller.js:8 | the notifications whose user id is the caller's, and only those |
| `Notifications.FeedOrder` | src/controllers/notification.controller.js:10-11 | ORDER BY created_at DESC over the caller's notifications: the same rows, created_at non-increasing (the order of the stored text, see "Left out") |
| `Notifications.EveryNotificationOnItsPage` | src/controllers/notification.controller.js:3-12 | with a page size l in 1..100, the caller's k-th newest notification is item k mod l of page k / l + 1, a page within the count reported |
| `Notifications.UnreadCount` | src/controllers/notification.controller.js:14 | the caller's unread count is 0 exactly when none of their notifications is unread, and never above the number of rows |
| `Notifications.UnreadWithinMine` | src/controllers/notification.controller.js:8-14 | the unread count never exceeds the caller's total |
| `Notifications.MarkAsRead` | src/controllers/notification.controller.js:32-41 | NOTIFICATION_NOT_FOUND for one not the caller's; otherwise only that one is flagged read |
| `Notifications.MarkAsReadCount` | src/controllers/notification.controller.js:14-41 | marking read lowers the unread count by one if it was unread, else leaves it |
| `Notifications.MarkAsReadIdempotent` | src/controllers/notification.controller.js:41 | marking the same notification twice is marking it once |
| `Notifications.ReadAll` | src/controllers/notification.controller.js:50 | the UPDATE flags every row of the user and keeps the others |
| `Notifications.MarkAllAsRead` | src/controllers/notification.controller.js:49-50 | every notification of the caller is read, the unread count is 0, no one else's changes |
| `Notifications.MarkAllAsReadIdempotent` | src/controllers/notification.controller.js:50 | marking all read twice is marking them once |
| `Referrals.GetReferrals` | src/controllers/referral.controller.js:7-28 | the stored code of the first referral if any, else a fresh code from the first name (500 without a user row); the caller's referrals, each as often as stored, created_at non-increasing; earnings from rewarded referrals only |
| `Referrals.NoReferralsEarnNothing` | src/controllers/referral.controller.js:25-27 | with no referral nothing is earned |
| `Referrals.TotalEarned` | src/controllers/referral.controller.js:25-27 | each rewarded referral of the caller counts in full, and the total is 0 exactly when none of the caller's referrals earns anything |
| `Referrals.Invite` | src/controllers/referral.controller.js:32-50 | ALREADY_INVITED for an address already invited; otherwise exactly one pending referral with the default reward and a generated code, or 500 if that code is taken |
| `Referrals.InviteOnce` | src/controllers/referral.controller.js:36-50 | after a successful invitation the same address is refused, whatever code is drawn |
| `Referrals.InviteEarnsNothing` | src/controllers/referral.controller.js:26 | a new invitation leaves the earnings unchanged |
| `Registration.AgeCountsCompletedYears` | src/controllers/auth.controller.js:22-26 | the computed age is at least k exactly when the k-th birthday is today or earlier |
| `Registration.Age` | src/controllers/auth.controller.js:22-26 | the age is the number of completed years: that anniversary has come by today and the next one has not |
| `Registration.IsMinor` | src/controllers/auth.controller.js:28 | a minor exactly when the 18th birthday is still to come |
| `Registration.EighteenthBirthdayIsAdult` | src/controllers/auth.controller.js:28 | on the 18th birthday one is no longer a minor, on every date strictly before it one is |
| `Registration.Register` | src/controllers/auth.controller.js:9-53 | EMAIL_EXISTS first, then PARENT_EMAIL_REQUIRED, with nothing created; on success one user (parent email kept only for a minor) and one active account with balance 0 and a generated IBAN; a taken IBAN leaves the user without an account |
| `Registration.RegisterOnce` | src/controllers/auth.controller.js:13-19 | registering the same email again is refused and changes nothing |
| `Invariants.DepositConserves` | src/controllers/savings.controller.js:124-131 | a deposit leaves balances plus savings unchanged |
| `Invariants.WithdrawConserves` | src/controllers/savings.controller.js:166-173 | a withdrawal leaves balances plus savings unchanged |
| `Invariants.TransferSendsAmountOut` | src/controllers/transaction.controller.js:118-125 | a transfer lowers the money held by exactly its amount |
| `Invariants.RunConserves` | src/controllers/savings.controller.js:96-173 | any sequence of deposits and withdrawals, refused ones included, conserves balances plus savings |
| `Invariants.AccountOfStable` | src/controllers/savings.controller.js:107 | changing balances does not change whose account is found |
| `Invariants.GoalOfStable` | src/controllers/savings.controller.js:99 | changing goal amounts does not change which goal is found |
| `Invariants.DepositThenWithdraw` | src/controllers/savings.controller.js:124-173 | depositing then withdrawing the same amount restores balance and goal |
| `Invariants.DeleteGoalConserves` | src/controllers/savings.controller.js:195-201 | with goal ids unique (the PRIMARY KEY) and no negative amount, deleting a goal leaves balances plus savings unchanged, though no entry records the refund |
| `Invariants.DeletedGoalIsGone` | src/controllers/savings.controller.js:186-201 | after a deletion, update, deposit, withdraw and delete of that goal all answer GOAL_NOT_FOUND |
| `Invariants.TransferKeepsValid` | src/controllers/transaction.controller.js:111-120 | a transfer never drives a balance below 0 |
| `Invariants.DepositKeepsValid` | src/controllers/savings.controller.js:117-126 | a deposit never drives a balance or a goal below 0 |
| `Invariants.WithdrawKeepsValid` | src/controllers/savings.controller.js:157-168 | a withdrawal never drives a goal below 0 |
| `Invariants.DeleteGoalKeepsValid` | src/controllers/savings.controller.js:196-201 | a deletion never drives a balance or a goal below 0 |
| `Invariants.CreateAndUpdateKeepValid` | src/controllers/savings.controller.js:34-86 | creating or updating a goal never makes an amount negative |
| `Invariants.TransferCountsAsExpense` | src/controllers/account.controller.js:45-57 | a transfer whose created_at lies between the window bounds raises the summary's expenses by its amount and leaves income unchanged |
| `Invariants.RequestLeavesSummary` | src/controllers/account.controller.js:48-55 | a money request changes no one's summary |
| `Invariants.MonthRowAgreesWithSummary` | src/controllers/transaction.controller.js:200-206 | the stats row of a month carries the same income and expenses as the summary of that month |
| `Scenarios.TransferFromDemo` | src/controllers/transaction.controller.js:118-125 | 25 € sent from 1 847,32 € leaves 1 822,32 € and logs the transfer to the IBAN |
| `Scenarios.DepositIntoTokyo` | src/controllers/savings.controller.js:124-131 | 50 € into a goal at 780 € of 2 500 € gives 830 € and progress 33.2 % |
| `Scenarios.WithdrawTooMuch` | src/controllers/savings.controller.js:157-162 | 150 € out of a goal holding 100 € is refused |
| `Scenarios.DeleteFullGoal` | src/controllers/savings.controller.js:196-201 | deleting a goal holding 420 € returns 420 € and the goal is gone |
| `Scenarios.TransferRefused` | src/controllers/transaction.controller.js:102-116 | 100 € from 50 € is refused for funds, a frozen account for its status |
| `Scenarios.ComingOfAge` | src/controllers/auth.controller.js:22-28 | born 9 October 2008: adult on 9 October 2026, minor the day before |
| `Scenarios.MaskedExample` | src/controllers/card.controller.js:51-52 | draw 42 gives `**** **** **** 0042` |
| `Scenarios.ExpiryExample` | src/controllers/card.controller.js:53-55 | first month drawn in 2026 gives `01/29` |
| `Scenarios.ReferralCodeExample` | src/controllers/referral.controller.js:45 | first name Eli and draw 2847 give `AEGIS-ELI2847` |

## Left out

- HTTP and Express: routes, validators, response shapes, status codes and messages. The validators' bounds are preconditions; each error code is a constructor of `Outcomes.Error`.
- Authentication: JWT, bcrypt, login, refresh, logout, password reset, the token blacklist, and the user profile controller. The password hash is an input of `Registration.Register`.
- Floating point: `eurosToCents`, `centsToEuros` and `toFixed`. Amounts are integer cents. The euro amount printed in the transfer notification is an input string.
- Savings.ProgressIsNearestTenth: rounds exact half tenths up, as decimal arithmetic does; `toFixed(1)` works on a binary double and can round such a case down.
- Text.TakeAtMost: a Dafny string is a sequence of Unicode code points, while JavaScript's `slice`, `padStart` and `length` count UTF-16 code units. The two agree on the digit strings the model builds and on first names within the Basic Multilingual Plane; a first name with a character above U+FFFF is cut differently (and JavaScript can even cut it in the middle of a surrogate pair, which the model cannot represent). `Formats.ReferralCode` inherits this.
- Text.Upper: upper-cases ASCII letters only; JavaScript also upper-cases accented letters and expands some (ß becomes SS). `Formats.ReferralCode` inherits this.
- SQLite itself: transactions, WAL, concurrency, and the races between a check and the write that follows it. Each operation is one atomic step.
- An UPDATE by id is modelled as updating the row the lookup found. The two are the same row because AUTOINCREMENT ids are unique; the model does not carry that uniqueness as an invariant.
- Foreign keys and ON DELETE CASCADE: the database turns them on, the model does not enforce them, so it admits stores the database cannot reach (an entry of a missing account, say). No contract here relies on them.
- Timestamps are integers. `createdAt` stands for the rank of the stored `created_at` text, which is what ORDER BY and the window comparisons of `getSummary` and `getStats` use. Rows the app inserts get `CURRENT_TIMESTAMP` (`YYYY-MM-DD HH:MM:SS`), while the window bounds and the seeded rows use `toISOString()` (`YYYY-MM-DDTHH:MM:SS.sssZ`); since a space sorts before `T`, that text order is not time order (an app row from the first day of the month falls before the month's start bound, and a seeded row sorts after an app row of the same day). The model keeps the text order and does not claim time order. The month windows, the start of the month and the calendar month of a timestamp are parameters.
- Entries with equal timestamps: SQLite leaves their order open; the model picks one, and no contract depends on it.
- An SQLite error reaches the error handler with its own code, not INTERNAL_ERROR; both are 500 and the model reports both as `Internal`.
- Parsing `date_of_birth` and time zones: the birth date and today's date are given as calendar dates.
- The unused second code `getReferrals` builds when a referral exists is left out: it is computed and dropped.
- The `cashback_rewards` table and the seed script's I/O are not modelled; the seed figures appear only in `Scenarios`.
- Read-only operations are pure functions, so calling one twice without a mutation in between gives the same result by construction; no lemma states it.
- The front end (`aegis-bank/src/**`) and `tailwind.config.js` are not part of this model.

## Findings

| source | as written | input that shows it | evidently intended | confidence | as-written member | corrected member |
|---|---|---|---|---|---|---|
| src/controllers/transaction.controller.js:21 | the page size is the parsed `limit` (20 when missing or 0) capped at 100 by a minimum, so a negative value passes through; SQLite reads a negative LIMIT as no limit. The same line is in src/controllers/notification.controller.js:5 | `limit=-1` on an account with 150 entries returns all 150 on one page | a page size between 1 and 100 | medium, not executed | `Pagination.NegativeLimitLiftsCap` | `Pagination.PaginateCorrected` |

=== FILE: accounts.dfy ===
/** `account.controller.js`: the caller's account and its monthly summary. */
module Accounts {
  import opened Outcomes
  import opened Seqs
  import opened Schema

  datatype AccountView = AccountView(id: nat, iban: string, balance: int, currency: string, status: AccountStatus, createdAt: int)

  datatype Summary = Summary(balance: int, currency: string, monthExpenses: nat, monthIncome: nat)

  /** A completed entry of the account dated inside [from, to], both ends included. */
  predicate InWindow(e: Entry, accountId: nat, from: int, to: int)
  {
    e.accountId == accountId && e.status == Completed && from <= e.createdAt <= to
  }

  /** What one entry adds to `month_expenses`. */
  function ExpensePart(e: Entry, accountId: nat, from: int, to: int): nat
  {
    if InWindow(e, accountId, from, to) && IsExpense(e.kind) then e.amount else 0
  }

  /** What one entry adds to `month_income`. */
  function IncomePart(e: Entry, accountId: nat, from: int, to: int): nat
  {
    if InWindow(e, accountId, from, to) && IsIncome(e.kind) then e.amount else 0
  }

  /** `COALESCE(SUM(amount), 0)` over completed debit/transfer_out entries in the window. */
  function MonthExpenses(es: seq<Entry>, accountId: nat, from: int, to: int): (r: nat)
    ensures forall k :: 0 <= k < |es| && InWindow(es[k], accountId, from, to) && IsExpense(es[k].kind) ==> r >= es[k].amount
    ensures r == 0 <==> forall k :: 0 <= k < |es| ==> ExpensePart(es[k], accountId, from, to) == 0
  {
    SumBoundsEach(es, (e: Entry) => ExpensePart(e, accountId, from, to));
    SumZeroIff(es, (e: Entry) => ExpensePart(e, accountId, from, to));
    Sum(es, (e: Entry) => ExpensePart(e, accountId, from, to))
  }

  /** `COALESCE(SUM(amount), 0)` over completed credit/transfer_in/cashback entries in the window. */
  function MonthIncome(es: seq<Entry>, accountId: nat, from: int, to: int): (r: nat)
    ensures forall k :: 0 <= k < |es| && InWindow(es[k], accountId, from, to) && IsIncome(es[k].kind) ==> r >= es[k].amount
    ensures r == 0 <==> forall k :: 0 <= k < |es| ==> IncomePart(es[k], accountId, from, to) == 0
  {
    SumBoundsEach(es, (e: Entry) => IncomePart(e, accountId, from, to));
    SumZeroIff(es, (e: Entry) => IncomePart(e, accountId, from, to));
    Sum(es, (e: Entry) => IncomePart(e, accountId, from, to))
  }

  /** `getAccount`. */
  function GetAccount(st: Store, uid: nat): (r: Result<AccountView>)
    ensures r.Err? <==> AccountOf(st, uid).None?
    ensures r.Err? ==> r.error == AccountNotFound
    ensures r.Ok? ==>
      var a := st.accounts[AccountOf(st, uid).value];
      a.userId == uid && r.value.id == a.id && r.value.iban == a.iban && r.value.balance == a.balance
      && r.value.status == a.status && r.value.currency == a.currency
  {
    match AccountOf(st, uid)
    case None => Err(AccountNotFound)
    case Some(i) =>
      var a := st.accounts[i];
      Ok(AccountView(a.id, a.iban, a.balance, a.currency, a.status, a.createdAt))
  }

  /** `getSummary` for the month [from, to] the clock gives. */
  function GetSummary(st: Store, uid: nat, from: int, to: int): (r: Result<Summary>)
    ensures r.Err? <==> AccountOf(st, uid).None?
    ensures r.Err? ==> r.error == AccountNotFound
    ensures r.Ok? ==>
      var a := st.accounts[AccountOf(st, uid).value];
      && r.value.balance == a.balance
      && r.value.monthExpenses == MonthExpenses(st.entries, a.id, from, to)
      && r.value.monthIncome == MonthIncome(st.entries, a.id, from, to)
  {
    match AccountOf(st, uid)
    case None => Err(AccountNotFound)
    case Some(i) =>
      var a := st.accounts[i];
      Ok(Summary(a.balance, a.currency, MonthExpenses(st.entries, a.id, from, to), MonthIncome(st.entries, a.id, from, to)))
  }

  /** Appending one entry adds exactly its own part to each total. */
  lemma SummaryOfAppend(es: seq<Entry>, e: Entry, accountId: nat, from: int, to: int)
    ensures MonthExpenses(es + [e], accountId, from, to) == MonthExpenses(es, accountId, from, to) + ExpensePart(e, accountId, from, to)
    ensures MonthIncome(es + [e], accountId, from, to) == MonthIncome(es, accountId, from, to) + IncomePart(e, accountId, from, to)
  {
    SumAppend(es, [e], (x: Entry) => ExpensePart(x, accountId, from, to));
    SumAppend(es, [e], (x: Entry) => IncomePart(x, accountId, from, to));
  }

  /** An entry counts towards at most one of the two totals, and a pending
      entry towards neither. */
  lemma EntryCountsOnce(e: Entry, accountId: nat, from: int, to: int)
    ensures ExpensePart(e, accountId, from, to) == 0 || IncomePart(e, accountId, from, to) == 0
    ensures e.status == Pending ==> ExpensePart(e, accountId, from, to) == 0 && IncomePart(e, accountId, from, to) == 0
  {
    IncomeExpensePartition(e.kind);
  }

  /** With no completed entry of the account in the window both totals are 0. */
  lemma EmptyMonth(es: seq<Entry>, accountId: nat, from: int, to: int)
    requires forall k :: 0 <= k < |es| ==> !InWindow(es[k], accountId, from, to)
    ensures MonthExpenses(es, accountId, from, to) == 0 && MonthIncome(es, accountId, from, to) == 0
  {
    SumOfZeros(es, (x: Entry) => ExpensePart(x, accountId, from, to));
    SumOfZeros(es, (x: Entry) => IncomePart(x, accountId, from, to));
  }
}

=== FILE: cards.dfy ===
/** `card.controller.js`: the cards of the caller's account. Every
    operation first looks up the caller's account, and a card is reachable
    only through the account it belongs to. */
module Cards {
  import opened Outcomes
  import opened Seqs
  import opened Text
  import opened Schema
  import opened Formats

  const SecurityKind: string := "security"
  const CardCreatedTitle: string := "Nouvelle carte virtuelle"
  const CardCreatedMessage: string := "Votre carte virtuelle a été créée avec succès"
  const CardBlockedTitle: string := "Carte bloquée"
  const CardBlockedMessage: string := "Votre carte a été bloquée définitivement"

  /** The body of an update request, amounts already in cents. */
  datatype CardPatch = CardPatch(
    dailyLimit: Option<int>,
    monthlyLimit: Option<int>,
    contactless: Option<bool>,
    onlinePayments: Option<bool>)

  /** `getCards`: the cards of the caller's account, in insertion order. */
  function GetCards(st: Store, uid: nat): (r: Result<seq<Card>>)
    ensures AccountOf(st, uid).None? <==> r == Err(AccountNotFound)
    ensures r.Err? ==> r.error == AccountNotFound
    ensures r.Ok? ==>
      var a := st.accounts[AccountOf(st, uid).value];
      && (forall c :: c in r.value <==> c in st.cards && c.accountId == a.id)
      && r.value == Filter(st.cards, (c: Card) => c.accountId == a.id)
  {
    match AccountOf(st, uid)
    case None => Err(AccountNotFound)
    case Some(i) => Ok(Filter(st.cards, (c: Card) => c.accountId == st.accounts[i].id))
  }

  /** `createCard`: a new active virtual card with the default limits and
      both switches on, announced by one `security` notification. The draws
      of the masked number and of the expiry month, and the current year,
      are parameters. */
  function CreateCard(st: Store, uid: nat, last4: nat, monthDraw: nat, year: nat, now: int): (r: Result<Store>)
    requires last4 < 10000 && monthDraw < 12
    ensures AccountOf(st, uid).None? <==> r == Err(AccountNotFound)
    ensures r.Err? ==> r.error == AccountNotFound
    ensures r.Ok? ==>
      var a := st.accounts[AccountOf(st, uid).value];
      && AppendedOne(st.cards, r.value.cards)
      && (var c := r.value.cards[|st.cards|];
          && c.id == st.next.cards && c.accountId == a.id && c.kind == Virtual && c.status == ActiveCard
          && c.maskedNumber == MaskedNumber(last4) && c.expiry == Expiry(monthDraw, year)
          && c.dailyLimit == DefaultDailyLimit && c.monthlyLimit == DefaultMonthlyLimit
          && c.contactless && c.onlinePayments)
      && AppendedOne(st.notifications, r.value.notifications)
      && r.value.notifications[|st.notifications|]
         == Notification(st.next.notifications, uid, SecurityKind, CardCreatedTitle, CardCreatedMessage, false, now)
      && r.value.accounts == st.accounts && r.value.entries == st.entries && r.value.goals == st.goals
      && r.value.users == st.users && r.value.referrals == st.referrals
      && r.value.next == st.next.(cards := st.next.cards + 1, notifications := st.next.notifications + 1)
  {
    match AccountOf(st, uid)
    case None => Err(AccountNotFound)
    case Some(i) =>
      var c := Card(st.next.cards, st.accounts[i].id, Virtual, MaskedNumber(last4), Expiry(monthDraw, year),
                    ActiveCard, DefaultDailyLimit, DefaultMonthlyLimit, true, true, now);
      var n := Notification(st.next.notifications, uid, SecurityKind, CardCreatedTitle, CardCreatedMessage, false, now);
      Ok(st.(cards := st.cards + [c], notifications := st.notifications + [n],
             next := st.next.(cards := st.next.cards + 1, notifications := st.next.notifications + 1)))
  }

  /** The card of the caller's account with id `cid`, or the error the
      controller answers with. */
  function Owned(st: Store, uid: nat, cid: nat): (r: Result<nat>)
    ensures AccountOf(st, uid).None? <==> r == Err(AccountNotFound)
    ensures AccountOf(st, uid).Some? ==>
      var a := st.accounts[AccountOf(st, uid).value];
      && (r == Err(CardNotFound) <==> forall j :: 0 <= j < |st.cards| ==> !(st.cards[j].id == cid && st.cards[j].accountId == a.id))
      && (r.Ok? ==> r.value < |st.cards| && st.cards[r.value].id == cid && st.cards[r.value].accountId == a.id)
    ensures r.Err? ==> r.error == AccountNotFound || r.error == CardNotFound
  {
    match AccountOf(st, uid)
    case None => Err(AccountNotFound)
    case Some(i) =>
      match CardOf(st, st.accounts[i].id, cid)
      case None => Err(CardNotFound)
      case Some(j) => Ok(j)
  }

  /** Changing a card's status, limits or switches does not change which
      card the caller reaches under an id. */
  lemma OwnedStable(st: Store, st2: Store, uid: nat, cid: nat)
    requires st2.accounts == st.accounts && |st2.cards| == |st.cards|
    requires forall k :: 0 <= k < |st.cards| ==>
      st2.cards[k].id == st.cards[k].id && st2.cards[k].accountId == st.cards[k].accountId
    ensures Owned(st2, uid, cid) == Owned(st, uid, cid)
  {
    match AccountOf(st, uid)
    case None =>
    case Some(i) =>
      var aid := st.accounts[i].id;
      FirstIndexAgrees(st.cards, st2.cards, (c: Card) => c.id == cid && c.accountId == aid);
  }

  /** The COALESCE update of one card: a field the request leaves out keeps
      its value. */
  function PatchedCard(c: Card, p: CardPatch): (d: Card)
    ensures d.id == c.id && d.accountId == c.accountId && d.status == c.status
    ensures d.maskedNumber == c.maskedNumber && d.expiry == c.expiry && d.kind == c.kind
    ensures d.dailyLimit == (if p.dailyLimit.Some? then p.dailyLimit.value else c.dailyLimit)
    ensures d.monthlyLimit == (if p.monthlyLimit.Some? then p.monthlyLimit.value else c.monthlyLimit)
    ensures d.contactless == (if p.contactless.Some? then p.contactless.value else c.contactless)
    ensures d.onlinePayments == (if p.onlinePayments.Some? then p.onlinePayments.value else c.onlinePayments)
  {
    c.(dailyLimit := Coalesce(p.dailyLimit, c.dailyLimit),
       monthlyLimit := Coalesce(p.monthlyLimit, c.monthlyLimit),
       contactless := Coalesce(p.contactless, c.contactless),
       onlinePayments := Coalesce(p.onlinePayments, c.onlinePayments))
  }

  /** `updateCard`. A blocked or frozen card can still be updated. */
  function UpdateCard(st: Store, uid: nat, cid: nat, p: CardPatch): (r: Result<Store>)
    ensures Owned(st, uid, cid).Err? <==> r.Err?
    ensures r.Err? ==> r.error == Owned(st, uid, cid).error
    ensures r.Ok? ==>
      var j := Owned(st, uid, cid).value;
      && SameExcept(st.cards, r.value.cards, j)
      && r.value.cards[j] == PatchedCard(st.cards[j], p)
      && r.value == st.(cards := r.value.cards)
  {
    match Owned(st, uid, cid)
    case Err(e) => Err(e)
    case Ok(j) => Ok(st.(cards := st.cards[j := PatchedCard(st.cards[j], p)]))
  }

  /** `freezeCard`: an active card becomes frozen and a frozen one active
      again; a blocked card is refused. */
  function FreezeCard(st: Store, uid: nat, cid: nat): (r: Result<Store>)
    ensures Owned(st, uid, cid).Err? ==> r == Err(Owned(st, uid, cid).error)
    ensures Owned(st, uid, cid).Ok? ==>
      var j := Owned(st, uid, cid).value;
      var c := st.cards[j];
      && (c.status == BlockedCard <==> r == Err(CardBlocked))
      && (r.Ok? <==> c.status != BlockedCard)
      && (r.Ok? ==>
        && SameExcept(st.cards, r.value.cards, j)
        && r.value.cards[j] == c.(status := if c.status == FrozenCard then ActiveCard else FrozenCard)
        && r.value == st.(cards := r.value.cards))
  {
    match Owned(st, uid, cid)
    case Err(e) => Err(e)
    case Ok(j) =>
      var c := st.cards[j];
      if c.status == BlockedCard then Err(CardBlocked)
      else
        var status := if c.status == FrozenCard then ActiveCard else FrozenCard;
        Ok(st.(cards := st.cards[j := c.(status := status)]))
  }

  /** `blockCard`: the card becomes blocked, whatever its status, and a
      `security` notification is written each time. */
  function BlockCard(st: Store, uid: nat, cid: nat, now: int): (r: Result<Store>)
    ensures Owned(st, uid, cid).Err? <==> r.Err?
    ensures r.Err? ==> r.error == Owned(st, uid, cid).error
    ensures r.Ok? ==>
      var j := Owned(st, uid, cid).value;
      && SameExcept(st.cards, r.value.cards, j)
      && r.value.cards[j] == st.cards[j].(status := BlockedCard)
      && AppendedOne(st.notifications, r.value.notifications)
      && r.value.notifications[|st.notifications|]
         == Notification(st.next.notifications, uid, SecurityKind, CardBlockedTitle, CardBlockedMessage, false, now)
      && r.value.accounts == st.accounts && r.value.entries == st.entries && r.value.goals == st.goals
      && r.value.users == st.users && r.value.referrals == st.referrals
      && r.value.next == st.next.(notifications := st.next.notifications + 1)
  {
    match Owned(st, uid, cid)
    case Err(e) => Err(e)
    case Ok(j) =>
      var n := Notification(st.next.notifications, uid, SecurityKind, CardBlockedTitle, CardBlockedMessage, false, now);
      Ok(st.(cards := st.cards[j := st.cards[j].(status := BlockedCard)],
             notifications := st.notifications + [n],
             next := st.next.(notifications := st.next.notifications + 1)))
  }

  /** Freezing twice gives back the cards as they were. */
  lemma FreezeTwiceRestores(st: Store, uid: nat, cid: nat)
    requires FreezeCard(st, uid, cid).Ok?
    ensures FreezeCard(FreezeCard(st, uid, cid).value, uid, cid).Ok?
    ensures FreezeCard(FreezeCard(st, uid, cid).value, uid, cid).value == st
  {
    var st1 := FreezeCard(st, uid, cid).value;
    OwnedStable(st, st1, uid, cid);
    var j := Owned(st, uid, cid).value;
    var st2 := FreezeCard(st1, uid, cid).value;
    assert st2.cards == st.cards;
  }

  /** Once blocked, a card stays blocked: freezing is refused, blocking
      again keeps it blocked, and an update leaves the status alone. */
  lemma BlockedIsFinal(st: Store, uid: nat, cid: nat, now: int, p: CardPatch)
    requires BlockCard(st, uid, cid, now).Ok?
    ensures var st1 := BlockCard(st, uid, cid, now).value;
      && FreezeCard(st1, uid, cid) == Err(CardBlocked)
      && BlockCard(st1, uid, cid, now).Ok?
      && UpdateCard(st1, uid, cid, p).Ok?
      && UpdateCard(st1, uid, cid, p).value.cards[Owned(st, uid, cid).value].status == BlockedCard
  {
    var st1 := BlockCard(st, uid, cid, now).value;
    OwnedStable(st, st1, uid, cid);
  }
}

=== FILE: formats.dfy ===
/** The identifiers the controllers make up from random draws: the masked
    number and expiry of a new card, the IBAN of a new account, and referral
    codes. Each random draw is a parameter. */
module Formats {
  import opened Text

  const MaskPrefix: string := "**** **** **** "
  const IbanPrefix: string := "BE68 "
  const CodePrefix: string := "AEGIS-"

  lemma SmallPowers()
    ensures Pow10(2) == 100 && Pow10(4) == 10000
  {
    assert Pow10(1) == 10;
    assert Pow10(2) == 100;
    assert Pow10(3) == 1000;
  }

  /** A new card's masked number from a draw below 10000. */
  function MaskedNumber(draw: nat): (m: string)
    requires draw < 10000
    ensures |m| == 19 && m[..15] == MaskPrefix
    ensures AllDigits(m[15..]) && ValueOf(m[15..]) == draw
  {
    SmallPowers();
    var last4 := ZeroPadded(draw, 4);
    var m := MaskPrefix + last4;
    assert |MaskPrefix| == 15;
    assert m[..15] == MaskPrefix;
    assert m[15..] == last4;
    m
  }

  /** Two draws give the same masked number only when they are equal. */
  lemma MaskedNumberInjective(a: nat, b: nat)
    requires a < 10000 && b < 10000
    ensures MaskedNumber(a) == MaskedNumber(b) <==> a == b
  {
  }

  /** A new card's expiry `MM/YY`: the month is one more than a draw below
      12, the year is the last two digits of the current year plus three. */
  function Expiry(monthDraw: nat, year: nat): (e: string)
    requires monthDraw < 12
    ensures 4 <= |e| <= 5 && e[2] == '/'
    ensures AllDigits(e[..2]) && ValueOf(e[..2]) == monthDraw + 1
    ensures 1 <= ValueOf(e[..2]) <= 12
    ensures year + 3 >= 10 ==> |e| == 5 && AllDigits(e[3..]) && ValueOf(e[3..]) == (year + 3) % 100
  {
    SmallPowers();
    var mm := ZeroPadded(monthDraw + 1, 2);
    var yy := TakeLast(DecimalString(year + 3), 2);
    var e := mm + "/" + yy;
    SlashLayout(mm, yy, e);
    YearDigits(year + 3);
    e
  }

  lemma SlashLayout(mm: string, yy: string, e: string)
    requires |mm| == 2 && e == mm + "/" + yy
    ensures |e| == 3 + |yy| && e[2] == '/' && e[..2] == mm && e[3..] == yy
  {
  }

  lemma YearDigits(y: nat)
    ensures y >= 10 ==>
      var yy := TakeLast(DecimalString(y), 2);
      |yy| == 2 && AllDigits(yy) && ValueOf(yy) == y % 100
  {
    if y >= 10 {
      LastTwoDigits(y);
    }
  }

  function Group(digits: string, k: nat): (g: string)
    requires |digits| == 16 && k < 4
    ensures |g| == 4
  {
    digits[4 * k..4 * k + 4]
  }

  /** A new account's IBAN: `BE68` and a draw below 10^16, zero-padded to
      16 digits and written in four groups of four. */
  function Iban(draw: nat): (s: string)
    requires draw < Pow10(16)
    ensures |s| == 24 && s[..5] == IbanPrefix
    ensures s[9] == ' ' && s[14] == ' ' && s[19] == ' '
  {
    var d := ZeroPadded(draw, 16);
    var s := IbanPrefix + Group(d, 0) + " " + Group(d, 1) + " " + Group(d, 2) + " " + Group(d, 3);
    GroupLayout(d, s);
    s
  }

  /** Where the prefix, the groups and the separators sit in an IBAN. */
  lemma GroupLayout(d: string, s: string)
    requires |d| == 16
    requires s == IbanPrefix + Group(d, 0) + " " + Group(d, 1) + " " + Group(d, 2) + " " + Group(d, 3)
    ensures |s| == 24 && s[..5] == IbanPrefix
    ensures s[9] == ' ' && s[14] == ' ' && s[19] == ' '
    ensures s[5..9] + s[10..14] + s[15..19] + s[20..24] == d
  {
    assert |IbanPrefix| == 5;
    var g0, g1, g2, g3 := Group(d, 0), Group(d, 1), Group(d, 2), Group(d, 3);
    assert s[..5] == IbanPrefix;
    assert s[5..9] == g0;
    assert s[10..14] == g1;
    assert s[15..19] == g2;
    assert s[20..24] == g3;
    assert g0 + g1 + g2 + g3 == d;
  }

  /** The digits an IBAN carries after its country prefix, spaces removed. */
  function IbanDigits(s: string): string
    requires |s| == 24
  {
    s[5..9] + s[10..14] + s[15..19] + s[20..24]
  }

  /** The draw can be read back from the IBAN it produced. */
  lemma IbanRoundTrip(draw: nat)
    requires draw < Pow10(16)
    ensures AllDigits(IbanDigits(Iban(draw))) && ValueOf(IbanDigits(Iban(draw))) == draw
  {
    var d := ZeroPadded(draw, 16);
    GroupLayout(d, Iban(draw));
  }

  /** Different draws give different IBANs. */
  lemma IbanInjective(a: nat, b: nat)
    requires a < Pow10(16) && b < Pow10(16)
    ensures Iban(a) == Iban(b) <==> a == b
  {
    if Iban(a) == Iban(b) {
      IbanRoundTrip(a);
      IbanRoundTrip(b);
    }
  }

  /** A referral code: `AEGIS-`, at most three letters of the first name in
      upper case, and a draw below 10000 written without padding. */
  function ReferralCode(firstName: string, draw: nat): (c: string)
    requires draw < 10000
    ensures |c| >= 7 && c[..6] == CodePrefix
    ensures var n := |TakeAtMost(firstName, 3)|;
      && |c| == 6 + n + |DecimalString(draw)|
      && (forall i :: 0 <= i < n ==> c[6 + i] == UpperChar(firstName[i]))
      && AllDigits(c[6 + n..]) && ValueOf(c[6 + n..]) == draw
    ensures |c| <= 13
  {
    DecimalRoundTrip(draw);
    SmallPowers();
    DecimalLength(draw, 4);
    var letters := TakeAtMost(Upper(firstName), 3);
    var c := CodePrefix + letters + DecimalString(draw);
    assert |CodePrefix| == 6;
    assert c[..6] == CodePrefix;
    assert c[6 + |letters|..] == DecimalString(draw);
    c
  }
}

=== FILE: invariants.dfy ===
/** Properties that relate several operations: money is conserved by the
    savings moves, balances and savings never go negative, and the monthly
    summary reacts to transfers and requests as the ledger says. */
module Invariants {
  import opened Outcomes
  import opened Seqs
  import opened Text
  import opened Schema
  import opened Transactions
  import opened Accounts
  import opened Savings
  import opened Stats

  /** All money the bank holds for its users: account balances plus what is
      put aside in goals. */
  function TotalMoney(st: Store): int
  {
    SumInt(st.accounts, (a: Account) => a.balance) + SumInt(st.goals, (g: Goal) => g.current)
  }

  /** A deposit moves money from a balance into a goal and creates none. */
  lemma DepositConserves(st: Store, uid: nat, gid: nat, amount: int, now: int)
    requires amount >= 1 && Deposit(st, uid, gid, amount, now).Ok?
    ensures TotalMoney(Deposit(st, uid, gid, amount, now).value) == TotalMoney(st)
  {
    var st2 := Deposit(st, uid, gid, amount, now).value;
    var gi, ai := GoalOf(st, uid, gid).value, AccountOf(st, uid).value;
    assert st2.accounts == st.accounts[ai := st2.accounts[ai]];
    assert st2.goals == st.goals[gi := st2.goals[gi]];
    SumIntUpdate(st.accounts, ai, st2.accounts[ai], (a: Account) => a.balance);
    SumIntUpdate(st.goals, gi, st2.goals[gi], (g: Goal) => g.current);
  }

  /** A withdrawal moves money from a goal back to the balance and creates none. */
  lemma WithdrawConserves(st: Store, uid: nat, gid: nat, amount: int, now: int)
    requires amount >= 1 && Withdraw(st, uid, gid, amount, now).Ok?
    ensures TotalMoney(Withdraw(st, uid, gid, amount, now).value) == TotalMoney(st)
  {
    var st2 := Withdraw(st, uid, gid, amount, now).value;
    var gi, ai := GoalOf(st, uid, gid).value, AccountOf(st, uid).value;
    assert st2.accounts == st.accounts[ai := st2.accounts[ai]];
    assert st2.goals == st.goals[gi := st2.goals[gi]];
    SumIntUpdate(st.accounts, ai, st2.accounts[ai], (a: Account) => a.balance);
    SumIntUpdate(st.goals, gi, st2.goals[gi], (g: Goal) => g.current);
  }

  /** A transfer sends exactly its amount out of the bank. */
  lemma TransferSendsAmountOut(st: Store, uid: nat, amount: int, iban: string, description: Option<string>, euros: string, now: int)
    requires amount >= 1 && Transactions.Transfer(st, uid, amount, iban, description, euros, now).Ok?
    ensures TotalMoney(Transactions.Transfer(st, uid, amount, iban, description, euros, now).value) == TotalMoney(st) - amount
  {
    var st2 := Transactions.Transfer(st, uid, amount, iban, description, euros, now).value;
    var ai := AccountOf(st, uid).value;
    assert st2.accounts == st.accounts[ai := st2.accounts[ai]];
    SumIntUpdate(st.accounts, ai, st2.accounts[ai], (a: Account) => a.balance);
  }

  /** A savings move as a user issues it. */
  datatype Move = DepositMove(gid: nat, amount: int) | WithdrawMove(gid: nat, amount: int)

  /** Applies the moves in order; a refused move leaves the store as it was. */
  function Run(st: Store, uid: nat, moves: seq<Move>, now: int): Store
    requires forall k :: 0 <= k < |moves| ==> moves[k].amount >= 1
    decreases |moves|
  {
    if |moves| == 0 then st
    else
      var r := match moves[0]
        case DepositMove(gid, amount) => Deposit(st, uid, gid, amount, now)
        case WithdrawMove(gid, amount) => Withdraw(st, uid, gid, amount, now);
      Run(if r.Ok? then r.value else st, uid, moves[1..], now)
  }

  /** Whatever sequence of deposits and withdrawals a user issues, and
      whichever of them are refused, the money held stays the same. */
  lemma {:induction false} RunConserves(st: Store, uid: nat, moves: seq<Move>, now: int)
    requires forall k :: 0 <= k < |moves| ==> moves[k].amount >= 1
    ensures TotalMoney(Run(st, uid, moves, now)) == TotalMoney(st)
    decreases |moves|
  {
    if |moves| > 0 {
      match moves[0]
      case DepositMove(gid, amount) =>
        var r := Deposit(st, uid, gid, amount, now);
        if r.Ok? {
          DepositConserves(st, uid, gid, amount, now);
        }
        RunConserves(if r.Ok? then r.value else st, uid, moves[1..], now);
      case WithdrawMove(gid, amount) =>
        var r := Withdraw(st, uid, gid, amount, now);
        if r.Ok? {
          WithdrawConserves(st, uid, gid, amount, now);
        }
        RunConserves(if r.Ok? then r.value else st, uid, moves[1..], now);
    }
  }

  /** Changing an account's balance does not change whose account it is. */
  lemma AccountOfStable(st: Store, st2: Store, uid: nat)
    requires |st2.accounts| == |st.accounts|
    requires forall k :: 0 <= k < |st.accounts| ==> st2.accounts[k].userId == st.accounts[k].userId
    ensures AccountOf(st2, uid) == AccountOf(st, uid)
  {
    FirstIndexAgrees(st.accounts, st2.accounts, (a: Account) => a.userId == uid);
  }

  /** Changing a goal's amounts does not change which goal an id reaches. */
  lemma GoalOfStable(st: Store, st2: Store, uid: nat, gid: nat)
    requires |st2.goals| == |st.goals|
    requires forall k :: 0 <= k < |st.goals| ==> st2.goals[k].id == st.goals[k].id && st2.goals[k].userId == st.goals[k].userId
    ensures GoalOf(st2, uid, gid) == GoalOf(st, uid, gid)
  {
    FirstIndexAgrees(st.goals, st2.goals, (g: Goal) => g.id == gid && g.userId == uid);
  }

  /** Depositing an amount and withdrawing it again gives back the balance
      and the goal as they were, with two entries in the log. The goal must
      not hold a negative amount, which `Valid` rules out. */
  lemma DepositThenWithdraw(st: Store, uid: nat, gid: nat, amount: int, now: int, later: int)
    requires Valid(st) && amount >= 1 && Deposit(st, uid, gid, amount, now).Ok?
    ensures var st1 := Deposit(st, uid, gid, amount, now).value;
      && Withdraw(st1, uid, gid, amount, later).Ok?
      && Withdraw(st1, uid, gid, amount, later).value.accounts == st.accounts
      && Withdraw(st1, uid, gid, amount, later).value.goals == st.goals
      && |Withdraw(st1, uid, gid, amount, later).value.entries| == |st.entries| + 2
  {
    var st1 := Deposit(st, uid, gid, amount, now).value;
    AccountOfStable(st, st1, uid);
    GoalOfStable(st, st1, uid, gid);
    var st2 := Withdraw(st1, uid, gid, amount, later).value;
    var gi, ai := GoalOf(st, uid, gid).value, AccountOf(st, uid).value;
    assert st2.accounts[ai] == st.accounts[ai];
    assert st2.goals[gi] == st.goals[gi];
    assert st2.accounts == st.accounts;
    assert st2.goals == st.goals;
  }

  /** Once deleted, a goal is unknown to every goal operation. */
  lemma DeletedGoalIsGone(st: Store, uid: nat, gid: nat, amount: int, now: int, p: GoalPatch)
    requires amount >= 1 && DeleteGoal(st, uid, gid).Ok?
    ensures var st1 := DeleteGoal(st, uid, gid).value;
      && UpdateGoal(st1, uid, gid, p) == Err(GoalNotFound)
      && Deposit(st1, uid, gid, amount, now) == Err(GoalNotFound)
      && Withdraw(st1, uid, gid, amount, now) == Err(GoalNotFound)
      && DeleteGoal(st1, uid, gid) == Err(GoalNotFound)
  {
  }

  /** Balances and savings stay non-negative under every operation that
      moves money. */
  lemma TransferKeepsValid(st: Store, uid: nat, amount: int, iban: string, description: Option<string>, euros: string, now: int)
    requires Valid(st) && amount >= 1 && Transactions.Transfer(st, uid, amount, iban, description, euros, now).Ok?
    ensures Valid(Transactions.Transfer(st, uid, amount, iban, description, euros, now).value)
  {
  }

  lemma DepositKeepsValid(st: Store, uid: nat, gid: nat, amount: int, now: int)
    requires Valid(st) && amount >= 1 && Deposit(st, uid, gid, amount, now).Ok?
    ensures Valid(Deposit(st, uid, gid, amount, now).value)
  {
  }

  lemma WithdrawKeepsValid(st: Store, uid: nat, gid: nat, amount: int, now: int)
    requires Valid(st) && amount >= 1 && Withdraw(st, uid, gid, amount, now).Ok?
    ensures Valid(Withdraw(st, uid, gid, amount, now).value)
  {
  }

  /** Goal ids are unique, as the PRIMARY KEY of `savings_goals` makes them. */
  ghost predicate UniqueGoalIds(st: Store)
  {
    forall i, j :: 0 <= i < j < |st.goals| ==> st.goals[i].id != st.goals[j].id
  }

  /** Deleting a goal gives what it holds back to the balance: no money is
      created or lost, even though no ledger entry records the refund. */
  lemma {:induction false} DeleteGoalConserves(st: Store, uid: nat, gid: nat)
    requires Valid(st) && UniqueGoalIds(st) && DeleteGoal(st, uid, gid).Ok?
    ensures TotalMoney(DeleteGoal(st, uid, gid).value) == TotalMoney(st)
  {
    var st2 := DeleteGoal(st, uid, gid).value;
    var gi := GoalOf(st, uid, gid).value;
    var g := st.goals[gi];
    forall j | 0 <= j < |st.goals| && j != gi
      ensures st.goals[j].id != gid
    {
      if j < gi {
        assert st.goals[j].id != st.goals[gi].id;
      } else {
        assert st.goals[gi].id != st.goals[j].id;
      }
    }
    SumIntFilterOne(st.goals, gi, (h: Goal) => h.id != gid, (h: Goal) => h.current);
    assert st2.goals == Filter(st.goals, (h: Goal) => h.id != gid);
    if g.current > 0 {
      var ai := AccountOf(st, uid).value;
      assert st2.accounts == st.accounts[ai := st2.accounts[ai]];
      SumIntUpdate(st.accounts, ai, st2.accounts[ai], (a: Account) => a.balance);
    }
  }

  lemma DeleteGoalKeepsValid(st: Store, uid: nat, gid: nat)
    requires Valid(st) && DeleteGoal(st, uid, gid).Ok?
    ensures Valid(DeleteGoal(st, uid, gid).value)
  {
    var st2 := DeleteGoal(st, uid, gid).value;
    forall k | 0 <= k < |st2.goals| ensures st2.goals[k].current >= 0 {
      assert st2.goals[k] in st.goals;
    }
  }

  lemma CreateAndUpdateKeepValid(st: Store, uid: nat, d: GoalDraft, now: int, gid: nat, p: GoalPatch)
    requires Valid(st) && d.target >= 100
    ensures Valid(CreateGoal(st, uid, d, now))
    ensures UpdateGoal(st, uid, gid, p).Ok? ==> Valid(UpdateGoal(st, uid, gid, p).value)
  {
  }

  /** A transfer dated inside the month raises that month's expenses by its
      amount and leaves its income as it was. */
  lemma TransferCountsAsExpense(st: Store, uid: nat, amount: int, iban: string, description: Option<string>,
                                euros: string, now: int, from: int, to: int)
    requires amount >= 1 && Transactions.Transfer(st, uid, amount, iban, description, euros, now).Ok?
    requires from <= now <= to
    ensures var before := GetSummary(st, uid, from, to);
      var after := GetSummary(Transactions.Transfer(st, uid, amount, iban, description, euros, now).value, uid, from, to);
      && before.Ok? && after.Ok?
      && after.value.monthExpenses == before.value.monthExpenses + amount
      && after.value.monthIncome == before.value.monthIncome
      && after.value.balance == before.value.balance - amount
  {
    var st2 := Transactions.Transfer(st, uid, amount, iban, description, euros, now).value;
    AccountOfStable(st, st2, uid);
    var a := st.accounts[AccountOf(st, uid).value];
    var e := st2.entries[|st.entries|];
    assert st2.entries == st.entries + [e];
    SummaryOfAppend(st.entries, e, a.id, from, to);
  }

  /** A request for money changes no summary: its entry is pending. */
  lemma RequestLeavesSummary(st: Store, uid: nat, amount: int, email: string, description: Option<string>,
                             now: int, other: nat, from: int, to: int)
    requires amount >= 1 && RequestMoney(st, uid, amount, email, description, now).Ok?
    ensures GetSummary(RequestMoney(st, uid, amount, email, description, now).value, other, from, to)
      == GetSummary(st, other, from, to)
  {
    var st2 := RequestMoney(st, uid, amount, email, description, now).value;
    if AccountOf(st, other).Some? {
      var b := st.accounts[AccountOf(st, other).value];
      var e := st2.entries[|st.entries|];
      assert st2.entries == st.entries + [e];
      SummaryOfAppend(st.entries, e, b.id, from, to);
      EntryCountsOnce(e, b.id, from, to);
    }
  }

  /** The monthly statistics and the account summary agree: when `monthOf`
      maps exactly the instants of [from, to] to month m, the stats row of m
      carries the summary's income and expenses. */
  lemma MonthRowAgreesWithSummary(es: seq<Entry>, accountId: nat, monthOf: int -> int, m: int, from: int, to: int)
    requires forall t :: monthOf(t) == m <==> from <= t <= to
    ensures MonthRowFor(es, accountId, monthOf, m).expenses == MonthExpenses(es, accountId, from, to)
    ensures MonthRowFor(es, accountId, monthOf, m).income == MonthIncome(es, accountId, from, to)
  {
    SumCongruent(es, (e: Entry) => ExpensesIn(e, accountId, monthOf, m), (e: Entry) => ExpensePart(e, accountId, from, to));
    SumCongruent(es, (e: Entry) => IncomeIn(e, accountId, monthOf, m), (e: Entry) => IncomePart(e, accountId, from, to));
  }
}

=== FILE: notifications.dfy ===
/** `notification.controller.js`: the caller's notification feed and its
    read flags. */
module Notifications {
  import opened Outcomes
  import opened Seqs
  import opened Schema
  import opened Pagination

  datatype Feed = Feed(items: seq<Notification>, unread: nat, info: PageInfo)

  predicate IsMine(n: Notification, uid: nat)
  {
    n.userId == uid
  }

  predicate UnreadOf(n: Notification, uid: nat)
  {
    n.userId == uid && !n.isRead
  }

  /** The number of the user's notifications not yet read. */
  function UnreadCount(st: Store, uid: nat): (r: nat)
    ensures r <= |st.notifications|
    ensures r == 0 <==> forall k :: 0 <= k < |st.notifications| ==> !UnreadOf(st.notifications[k], uid)
  {
    var unread := Filter(st.notifications, (n: Notification) => UnreadOf(n, uid));
    assert |unread| > 0 ==> unread[0] in unread;
    assert forall k :: 0 <= k < |st.notifications| && UnreadOf(st.notifications[k], uid) ==>
      st.notifications[k] in unread;
    Count(st.notifications, (n: Notification) => UnreadOf(n, uid))
  }

  function NotifiedAt(n: Notification): int
  {
    n.createdAt
  }

  /** The caller's notifications. */
  function Mine(st: Store, uid: nat): (r: seq<Notification>)
    ensures forall n :: n in r <==> n in st.notifications && IsMine(n, uid)
  {
    Filter(st.notifications, (n: Notification) => IsMine(n, uid))
  }

  /** The caller's notifications newest first: ORDER BY created_at DESC. */
  function FeedOrder(st: Store, uid: nat): (r: seq<Notification>)
    ensures multiset(r) == multiset(Mine(st, uid))
    ensures SortedDesc(r, NotifiedAt)
  {
    SortDesc(Mine(st, uid), NotifiedAt)
  }

  /** `getNotifications`: one LIMIT/OFFSET window of the caller's
      notifications, newest first, with how many of all of them are unread
      and the page figures as the code computes them. */
  function GetNotifications(st: Store, uid: nat, page: Option<int>, limit: Option<int>): (r: Feed)
    ensures r.info.page == PageNumber(page) && r.info.limit == PageLimitAsWritten(limit)
    ensures r.info.total == |Mine(st, uid)|
    ensures r.info.pages == ReportedPages(r.info.total, r.info.limit)
    ensures r.items == Window(FeedOrder(st, uid), Offset(r.info.page, r.info.limit), r.info.limit)
    ensures forall k :: 0 <= k < |r.items| ==> r.items[k] in st.notifications && r.items[k].userId == uid
    ensures SortedDesc(r.items, NotifiedAt)
    ensures r.info.limit >= 1 ==> |r.items| <= r.info.limit
    ensures r.info.limit < 0 && r.info.page >= 1 ==> multiset(r.items) == multiset(Mine(st, uid))
    ensures r.unread == UnreadCount(st, uid) && r.unread <= r.info.total
  {
    var ordered := FeedOrder(st, uid);
    var (items, info) := Paginate(ordered, page, limit);
    WindowOfFeed(st, uid, Offset(info.page, info.limit), info.limit);
    UnreadWithinMine(st.notifications, uid);
    Feed(items, UnreadCount(st, uid), info)
  }

  /** Any window of the ordered feed holds only the caller's notifications,
      newest first, and the feed is as long as the caller's total. */
  lemma WindowOfFeed(st: Store, uid: nat, offset: int, limit: int)
    ensures |FeedOrder(st, uid)| == |Mine(st, uid)|
    ensures var w := Window(FeedOrder(st, uid), offset, limit);
      && (forall k :: 0 <= k < |w| ==> w[k] in st.notifications && w[k].userId == uid)
      && SortedDesc(w, NotifiedAt)
  {
    var ordered := FeedOrder(st, uid);
    assert |multiset(ordered)| == |multiset(Mine(st, uid))|;
    WindowKeepsOrder(ordered, offset, limit, NotifiedAt);
    var w := Window(ordered, offset, limit);
    forall k | 0 <= k < |w|
      ensures w[k] in st.notifications && w[k].userId == uid
    {
      assert w[k] in multiset(ordered);
      assert w[k] in Mine(st, uid);
    }
  }

  /** Every notification of the caller can be reached: with a page size l in
      1..100, the k-th newest is row k % l of page k / l + 1, a page within
      the count reported. */
  lemma EveryNotificationOnItsPage(st: Store, uid: nat, l: int, k: nat)
    requires 1 <= l <= MaxLimit && k < |Mine(st, uid)|
    ensures var r := GetNotifications(st, uid, Some(k / l + 1), Some(l));
      && k / l + 1 <= r.info.pages
      && k % l < |r.items|
      && r.items[k % l] == FeedOrder(st, uid)[k]
  {
    var ordered := FeedOrder(st, uid);
    assert |multiset(ordered)| == |multiset(Mine(st, uid))|;
    var p := k / l + 1;
    assert PageNumber(Some(p)) == p;
    assert PageLimitAsWritten(Some(l)) == l;
    var r := GetNotifications(st, uid, Some(p), Some(l));
    assert r.items == Window(ordered, Offset(p, l), l);
    assert r.info.pages == PageCount(|ordered|, l);
    RowOnItsPage(ordered, l, k);
  }

  lemma {:induction false} UnreadWithinMine(ns: seq<Notification>, uid: nat)
    ensures Count(ns, (n: Notification) => UnreadOf(n, uid)) <= Count(ns, (n: Notification) => IsMine(n, uid))
  {
    if |ns| > 0 {
      assert ns == [ns[0]] + ns[1..];
      FilterAppend([ns[0]], ns[1..], (n: Notification) => UnreadOf(n, uid));
      FilterAppend([ns[0]], ns[1..], (n: Notification) => IsMine(n, uid));
      UnreadWithinMine(ns[1..], uid);
    }
  }

  /** `markAsRead`: the caller's notification `nid` is flagged as read;
      another user's notification is reported as missing. */
  function MarkAsRead(st: Store, uid: nat, nid: nat): (r: Result<Store>)
    ensures NotificationOf(st, uid, nid).None? <==> r == Err(NotificationNotFound)
    ensures r.Err? ==> r.error == NotificationNotFound
    ensures r.Ok? ==>
      var i := NotificationOf(st, uid, nid).value;
      && SameExcept(st.notifications, r.value.notifications, i)
      && r.value.notifications[i] == st.notifications[i].(isRead := true)
      && r.value == st.(notifications := r.value.notifications)
  {
    match NotificationOf(st, uid, nid)
    case None => Err(NotificationNotFound)
    case Some(i) => Ok(st.(notifications := st.notifications[i := st.notifications[i].(isRead := true)]))
  }

  /** Marking a notification read lowers the unread count by one when it was
      unread, and leaves it alone otherwise. */
  lemma MarkAsReadCount(st: Store, uid: nat, nid: nat)
    requires MarkAsRead(st, uid, nid).Ok?
    ensures var i := NotificationOf(st, uid, nid).value;
      UnreadCount(MarkAsRead(st, uid, nid).value, uid)
        == UnreadCount(st, uid) - (if st.notifications[i].isRead then 0 else 1)
  {
    var i := NotificationOf(st, uid, nid).value;
    CountUpdate(st.notifications, i, st.notifications[i].(isRead := true), (n: Notification) => UnreadOf(n, uid));
  }

  /** Marking the same notification read twice changes nothing the second time. */
  lemma MarkAsReadIdempotent(st: Store, uid: nat, nid: nat)
    requires MarkAsRead(st, uid, nid).Ok?
    ensures MarkAsRead(MarkAsRead(st, uid, nid).value, uid, nid) == MarkAsRead(st, uid, nid)
  {
    var st1 := MarkAsRead(st, uid, nid).value;
    FirstIndexAgrees(st.notifications, st1.notifications, (n: Notification) => n.id == nid && n.userId == uid);
    var i := NotificationOf(st, uid, nid).value;
    assert st1.notifications[i := st1.notifications[i].(isRead := true)] == st1.notifications;
  }

  function ReadAll(ns: seq<Notification>, uid: nat): (r: seq<Notification>)
    ensures |r| == |ns|
    ensures forall k :: 0 <= k < |ns| ==>
      r[k] == (if ns[k].userId == uid then ns[k].(isRead := true) else ns[k])
  {
    seq(|ns|, k requires 0 <= k < |ns| => if ns[k].userId == uid then ns[k].(isRead := true) else ns[k])
  }

  /** `markAllAsRead`: every notification of the caller is flagged as read;
      no one else's is touched. */
  function MarkAllAsRead(st: Store, uid: nat): (r: Store)
    ensures |r.notifications| == |st.notifications|
    ensures forall k :: 0 <= k < |st.notifications| && st.notifications[k].userId != uid ==>
      r.notifications[k] == st.notifications[k]
    ensures forall k :: 0 <= k < |st.notifications| && st.notifications[k].userId == uid ==>
      r.notifications[k] == st.notifications[k].(isRead := true)
    ensures UnreadCount(r, uid) == 0
    ensures r == st.(notifications := r.notifications)
  {
    var r := st.(notifications := ReadAll(st.notifications, uid));
    CountNone(r.notifications, (n: Notification) => UnreadOf(n, uid));
    r
  }

  /** Marking all read a second time changes nothing. */
  lemma MarkAllAsReadIdempotent(st: Store, uid: nat)
    ensures MarkAllAsRead(MarkAllAsRead(st, uid), uid) == MarkAllAsRead(st, uid)
  {
    var st1 := MarkAllAsRead(st, uid);
    var st2 := MarkAllAsRead(st1, uid);
    assert st2.notifications == st1.notifications;
  }
}

=== FILE: outcomes.dfy ===
/** Optional values, the error codes the controllers answer with, and the
    result type every operation of the model returns. */
module Outcomes {

  /** A value that may be absent: a missing request field, a NULL column, or a
      lookup that found no row. */
  datatype Option<+T> = None | Some(value: T)

  /** The `error.code` strings the controllers send back. `Internal` stands for
      an exception the controller does not catch (a property read on an
      undefined row, a violated UNIQUE constraint), which the Express error
      handler turns into a 500 answer. */
  datatype Error =
    | AccountNotFound        // ACCOUNT_NOT_FOUND
    | AccountInactive        // ACCOUNT_INACTIVE
    | InsufficientFunds      // INSUFFICIENT_FUNDS
    | InsufficientSavings    // INSUFFICIENT_SAVINGS
    | TransactionNotFound    // TRANSACTION_NOT_FOUND
    | GoalNotFound           // GOAL_NOT_FOUND
    | CardNotFound           // CARD_NOT_FOUND
    | CardBlocked            // CARD_BLOCKED
    | NotificationNotFound   // NOTIFICATION_NOT_FOUND
    | AlreadyInvited         // ALREADY_INVITED
    | EmailExists            // EMAIL_EXISTS
    | ParentEmailRequired    // PARENT_EMAIL_REQUIRED
    | Internal               // uncaught exception, answered with status 500

  datatype Result<+T> = Ok(value: T) | Err(error: Error)

  /** JavaScript `s || null` on an optional string: an absent value and the
      empty string (which is falsy) both become NULL. */
  function Truthy(s: Option<string>): (r: Option<string>)
    ensures r.Some? <==> s.Some? && s.value != ""
    ensures r.Some? ==> r.value == s.value
  {
    if s.Some? && s.value != "" then s else None
  }

  /** `COALESCE(v, old)`: the supplied value when there is one, the old one otherwise. */
  function Coalesce<T>(v: Option<T>, prior: T): T
  {
    match v
    case Some(x) => x
    case None => prior
  }
}

=== FILE: pagination.dfy ===
/** The paging arithmetic shared by the transaction and notification
    listings: `page`, `limit`, `offset` and `pages`, and how SQLite applies
    the resulting LIMIT/OFFSET. */
module Pagination {
  import opened Outcomes
  import opened Seqs

  const DefaultLimit: int := 20
  const MaxLimit: int := 100

  /** The figures a listing reports beside its page. `limit` and `pages`
      are what the code computes, so both can be negative. */
  datatype PageInfo = PageInfo(page: int, limit: int, total: nat, pages: int)

  /** `parseInt(req.query.page) || 1`. `requested` is what `parseInt`
      returned: None when the parameter is missing or not a number (NaN). */
  function PageNumber(requested: Option<int>): (p: int)
    ensures p != 0
    ensures requested.Some? && requested.value != 0 ==> p == requested.value
    ensures requested.None? || requested.value == 0 ==> p == 1
  {
    if requested.Some? && requested.value != 0 then requested.value else 1
  }

  /** `Math.min(parseInt(req.query.limit) || 20, 100)` exactly as written.
      A negative number is truthy and passes through the `Math.min`. */
  function PageLimitAsWritten(requested: Option<int>): (l: int)
    ensures l <= MaxLimit && l != 0
    ensures requested.None? || requested.value == 0 ==> l == DefaultLimit
    ensures requested.Some? && requested.value < 0 ==> l == requested.value
  {
    var v := if requested.Some? && requested.value != 0 then requested.value else DefaultLimit;
    if v < MaxLimit then v else MaxLimit
  }

  /** `(page - 1) * limit`. */
  function Offset(page: int, limit: int): int
  {
    (page - 1) * limit
  }

  /** `Math.ceil(total / limit)`: the fewest pages of `limit` rows that hold `total` rows. */
  function PageCount(total: nat, limit: int): (pages: nat)
    requires limit >= 1
    ensures pages * limit >= total
    ensures pages > 0 ==> (pages - 1) * limit < total
    ensures pages == 0 <==> total == 0
  {
    var q := (total + limit - 1) / limit;
    var rem := (total + limit - 1) % limit;
    assert total + limit - 1 == q * limit + rem;
    assert (q - 1) * limit == q * limit - limit;
    q
  }

  /** `Math.ceil(total / limit)` for the non-zero limit the listings compute.
      With a negative limit the quotient is at most 0, and so is the count. */
  function ReportedPages(total: nat, limit: int): (pages: int)
    requires limit != 0
    ensures limit >= 1 ==> pages == PageCount(total, limit)
    ensures limit < 0 ==> pages <= 0 && pages * limit <= total < (pages - 1) * limit
  {
    if limit >= 1 then PageCount(total, limit)
    else
      CeilOfNegative(total, limit);
      -(total / -limit)
  }

  lemma CeilOfNegative(total: nat, limit: int)
    ensures limit < 0 ==>
      var p := -(total / -limit);
      p <= 0 && p * limit <= total < (p - 1) * limit
  {
    if limit < 0 {
      var d := -limit;
      var q := total / d;
      var m := total % d;
      assert total == q * d + m && 0 <= m < d;
      assert q >= 0;
      NegateProduct(q, d);
    }
  }

  lemma NegateProduct(q: int, d: int)
    ensures (-q) * (-d) == q * d && (-q - 1) * (-d) == q * d + d
  {
  }

  /** One page of an already ordered result, with the figures the listing
      reports beside it, as `getTransactions` and `getNotifications` compute
      them: the page is the LIMIT/OFFSET window SQLite returns. */
  function Paginate<T>(ordered: seq<T>, page: Option<int>, limit: Option<int>): (r: (seq<T>, PageInfo))
    ensures r.1.page == PageNumber(page) && r.1.limit == PageLimitAsWritten(limit)
    ensures r.1.total == |ordered| && r.1.pages == ReportedPages(|ordered|, r.1.limit)
    ensures r.0 == Window(ordered, Offset(r.1.page, r.1.limit), r.1.limit)
    ensures r.1.limit >= 1 ==> |r.0| <= r.1.limit
    ensures r.1.limit < 0 && r.1.page >= 1 ==> r.0 == ordered
  {
    var p := PageNumber(page);
    var l := PageLimitAsWritten(limit);
    var items := Window(ordered, Offset(p, l), l);
    NoLimitIsEverything(ordered, p, l);
    (items, PageInfo(p, l, |ordered|, ReportedPages(|ordered|, l)))
  }

  /** From page 1 on, a negative limit gives a non-positive offset, which
      SQLite reads as 0, and no upper bound: the window is the whole result. */
  lemma NoLimitIsEverything<T>(ordered: seq<T>, p: int, l: int)
    ensures l < 0 && p >= 1 ==> Window(ordered, Offset(p, l), l) == ordered
  {
    if l < 0 && p >= 1 {
      assert (p - 1) * (-l) >= 0;
      assert Offset(p, l) <= 0;
      assert ordered[0..] == ordered;
    }
  }

  /** A negative `limit` request gets past the cap: the first page holds
      every row, more than 100 of them, and the page count reported is not
      positive. */
  lemma NegativeLimitLiftsCap<T>(rows: seq<T>, requested: int)
    requires requested < 0 && |rows| > MaxLimit
    ensures var r := Paginate(rows, None, Some(requested));
      && r.0 == rows && |r.0| > MaxLimit
      && r.1.limit == requested && r.1.pages <= 0
  {
  }

  /** The corrected limit: the written rule, with a non-positive request
      treated like a missing one so that 1 <= limit <= 100 holds. */
  function PageLimit(requested: Option<int>): (l: int)
    ensures 1 <= l <= MaxLimit
    ensures requested.Some? && 1 <= requested.value <= MaxLimit ==> l == requested.value
    ensures requested.Some? && requested.value > MaxLimit ==> l == MaxLimit
    ensures requested.None? || requested.value <= 0 ==> l == DefaultLimit
  {
    if requested.Some? && requested.value > 0 then PageLimitAsWritten(requested) else DefaultLimit
  }

  /** The corrected limit differs from the written one only on negative requests. */
  lemma PageLimitMatchesAsWritten(requested: Option<int>)
    ensures requested.None? || requested.value >= 0 <==> PageLimit(requested) == PageLimitAsWritten(requested)
  {
  }

  /** Pagination with the corrected limit: never more than 100 rows, and
      at least one page whenever there is a row. */
  function PaginateCorrected<T>(ordered: seq<T>, page: Option<int>, limit: Option<int>): (r: (seq<T>, PageInfo))
    ensures r.1.page == PageNumber(page) && r.1.limit == PageLimit(limit)
    ensures r.1.total == |ordered| && r.1.pages == PageCount(|ordered|, r.1.limit)
    ensures r.0 == Window(ordered, Offset(r.1.page, r.1.limit), r.1.limit)
    ensures |r.0| <= r.1.limit <= MaxLimit
    ensures r.1.pages >= 1 <==> |ordered| >= 1
  {
    var p := PageNumber(page);
    var l := PageLimit(limit);
    (Window(ordered, Offset(p, l), l), PageInfo(p, l, |ordered|, PageCount(|ordered|, l)))
  }

  /** The correction changes nothing unless the requested limit is negative. */
  lemma CorrectedAgreesUnlessNegative<T>(ordered: seq<T>, page: Option<int>, limit: Option<int>)
    ensures limit.None? || limit.value >= 0 <==> PaginateCorrected(ordered, page, limit) == Paginate(ordered, page, limit)
  {
    PageLimitMatchesAsWritten(limit);
  }

  /** Every row of the ordered result is reachable: row k is at position
      k % limit of page k / limit + 1, and that page is within `pages`. */
  lemma RowOnItsPage<T>(ordered: seq<T>, limit: int, k: nat)
    requires 1 <= limit && k < |ordered|
    ensures var p := k / limit + 1;
      && p <= PageCount(|ordered|, limit)
      && k % limit < |Window(ordered, Offset(p, limit), limit)|
      && Window(ordered, Offset(p, limit), limit)[k % limit] == ordered[k]
  {
    var q, m := k / limit, k % limit;
    RowArithmetic(k, limit, |ordered|);
    WindowAt(ordered, Offset(q + 1, limit), limit, m);
  }

  /** Position m of a window starting at a row that exists, m below the limit
      and within the result, is row offset + m. */
  lemma WindowAt<T>(s: seq<T>, offset: int, limit: int, m: int)
    requires 0 <= offset && 0 <= m < limit && offset + m < |s|
    ensures m < |Window(s, offset, limit)| && Window(s, offset, limit)[m] == s[offset + m]
  {
  }

  /** The arithmetic behind RowOnItsPage: k splits into its page's offset
      plus its position, and its page is within the page count. */
  lemma RowArithmetic(k: nat, limit: int, total: nat)
    requires 1 <= limit && k < total
    ensures var q, m := k / limit, k % limit;
      && k == q * limit + m && 0 <= m < limit && q >= 0
      && Offset(q + 1, limit) == q * limit
      && q + 1 <= PageCount(total, limit)
  {
    var q, m := k / limit, k % limit;
    assert k == q * limit + m;
    var pages := PageCount(total, limit);
    if q >= pages {
      MulMonotone(q, pages, limit);
      assert false;
    }
  }

  lemma MulMonotone(a: int, b: int, c: int)
    requires a >= b && c >= 0
    ensures a * c >= b * c
  {
  }
}

=== FILE: referrals.dfy ===
/** `referral.controller.js`: the caller's referral code, invitations and
    earned rewards. */
module Referrals {
  import opened Outcomes
  import opened Seqs
  import opened Schema
  import opened Formats

  datatype ReferralsView = ReferralsView(code: string, referrals: seq<Referral>, totalEarned: nat)

  function InvitedAt(f: Referral): int
  {
    f.createdAt
  }

  /** What one referral adds to the caller's earnings: its reward once it is
      rewarded, nothing before. */
  function EarnedFrom(f: Referral, uid: nat): nat
  {
    if f.referrerId == uid && f.status == Rewarded then f.reward else 0
  }

  function TotalEarned(rs: seq<Referral>, uid: nat): (r: nat)
    ensures forall k :: 0 <= k < |rs| && rs[k].referrerId == uid && rs[k].status == Rewarded ==> r >= rs[k].reward
    ensures r == 0 <==> forall k :: 0 <= k < |rs| ==> EarnedFrom(rs[k], uid) == 0
  {
    SumBoundsEach(rs, (f: Referral) => EarnedFrom(f, uid));
    SumZeroIff(rs, (f: Referral) => EarnedFrom(f, uid));
    Sum(rs, (f: Referral) => EarnedFrom(f, uid))
  }

  /** `getReferrals`. The code shown is the one stored on the caller's first
      referral; a caller who has none gets a fresh code drawn from their
      first name, which is not stored, and a missing user row then throws.
      The draw is a parameter. */
  function GetReferrals(st: Store, uid: nat, draw: nat): (r: Result<ReferralsView>)
    requires draw < 10000
    ensures FirstReferralOf(st, uid).Some? ==> r.Ok? && r.value.code == st.referrals[FirstReferralOf(st, uid).value].code
    ensures FirstReferralOf(st, uid).None? && UserById(st, uid).None? <==> r == Err(Internal)
    ensures FirstReferralOf(st, uid).None? && UserById(st, uid).Some? ==>
      r.Ok? && r.value.code == ReferralCode(st.users[UserById(st, uid).value].firstName, draw)
    ensures r.Ok? ==>
      && (forall f :: f in r.value.referrals <==> f in st.referrals && f.referrerId == uid)
      && multiset(r.value.referrals) == multiset(Filter(st.referrals, (f: Referral) => f.referrerId == uid))
      && SortedDesc(r.value.referrals, InvitedAt)
      && r.value.totalEarned == TotalEarned(st.referrals, uid)
      && (FirstReferralOf(st, uid).None? ==> r.value.referrals == [] && r.value.totalEarned == 0)
  {
    var mine := Filter(st.referrals, (f: Referral) => f.referrerId == uid);
    var listed := SortDesc(mine, InvitedAt);
    SameElements(listed, mine);
    var code :=
      match FirstReferralOf(st, uid)
      case Some(i) => Ok(st.referrals[i].code)
      case None =>
        match UserById(st, uid)
        case None => Err(Internal)
        case Some(u) => Ok(ReferralCode(st.users[u].firstName, draw));
    if code.Err? then Err(Internal)
    else
      NoReferralsEarnNothing(st, uid);
      Ok(ReferralsView(code.value, listed, TotalEarned(st.referrals, uid)))
  }

  lemma NoReferralsEarnNothing(st: Store, uid: nat)
    ensures FirstReferralOf(st, uid).None? ==> TotalEarned(st.referrals, uid) == 0
  {
    if FirstReferralOf(st, uid).None? {
      SumOfZeros(st.referrals, (f: Referral) => EarnedFrom(f, uid));
    }
  }

  /** Whether some referral already holds `code` (the UNIQUE constraint). */
  predicate CodeTaken(st: Store, code: string)
  {
    exists k :: 0 <= k < |st.referrals| && st.referrals[k].code == code
  }

  /** `invite`: one pending referral per invited address, carrying the
      default reward and a code drawn from the caller's first name. The
      draw is a parameter; a code already stored violates the UNIQUE
      constraint and the insert throws. */
  function Invite(st: Store, uid: nat, email: string, draw: nat, now: int): (r: Result<Store>)
    requires draw < 10000
    ensures InvitationOf(st, uid, email).Some? <==> r == Err(AlreadyInvited)
    ensures InvitationOf(st, uid, email).None? && UserById(st, uid).None? ==> r == Err(Internal)
    ensures InvitationOf(st, uid, email).None? && UserById(st, uid).Some? ==>
      var code := ReferralCode(st.users[UserById(st, uid).value].firstName, draw);
      && (CodeTaken(st, code) <==> r == Err(Internal))
      && (r.Ok? ==>
        && AppendedOne(st.referrals, r.value.referrals)
        && r.value.referrals[|st.referrals|]
             == Referral(st.next.referrals, uid, email, code, ReferralPending, DefaultReward, now)
        && r.value == st.(referrals := r.value.referrals, next := r.value.next))
    ensures r.Err? ==> r.error == AlreadyInvited || r.error == Internal
  {
    match InvitationOf(st, uid, email)
    case Some(_) => Err(AlreadyInvited)
    case None =>
      match UserById(st, uid)
      case None => Err(Internal)
      case Some(u) =>
        var code := ReferralCode(st.users[u].firstName, draw);
        if CodeTaken(st, code) then Err(Internal)
        else
          var f := Referral(st.next.referrals, uid, email, code, ReferralPending, DefaultReward, now);
          Ok(st.(referrals := st.referrals + [f], next := st.next.(referrals := st.next.referrals + 1)))
  }

  /** The same address cannot be invited twice by the same user, whatever
      code the second attempt would draw. */
  lemma InviteOnce(st: Store, uid: nat, email: string, draw: nat, draw2: nat, now: int, later: int)
    requires draw < 10000 && draw2 < 10000
    requires Invite(st, uid, email, draw, now).Ok?
    ensures Invite(Invite(st, uid, email, draw, now).value, uid, email, draw2, later) == Err(AlreadyInvited)
  {
    var st1 := Invite(st, uid, email, draw, now).value;
    assert st1.referrals[|st.referrals|].referrerId == uid && st1.referrals[|st.referrals|].email == email;
  }

  /** An invitation earns nothing until it is rewarded. */
  lemma {:induction false} InviteEarnsNothing(st: Store, uid: nat, email: string, draw: nat, now: int)
    requires draw < 10000
    requires Invite(st, uid, email, draw, now).Ok?
    ensures TotalEarned(Invite(st, uid, email, draw, now).value.referrals, uid) == TotalEarned(st.referrals, uid)
  {
    var rs := Invite(st, uid, email, draw, now).value.referrals;
    var f := rs[|st.referrals|];
    assert rs == st.referrals + [f];
    SumAppend(st.referrals, [f], (g: Referral) => EarnedFrom(g, uid));
  }
}

=== FILE: registration.dfy ===
/** `register` of `auth.controller.js`: the age and minor rules, the new
    user row and the zero-balance account opened with it. Password hashing
    and token signing are left out; the hash is an input. */
module Registration {
  import opened Outcomes
  import opened Seqs
  import opened Text
  import opened Schema
  import opened Formats

  const AdultAge: int := 18

  /** The request body; `passwordHash` stands for the bcrypt hash of the password. */
  datatype SignUp = SignUp(
    firstName: string,
    lastName: string,
    email: string,
    phone: Option<string>,
    passwordHash: string,
    dateOfBirth: Date,
    parentEmail: Option<string>)

  /** The store after the request, and the new user's id or the error. The
      store is returned on failure too: the two inserts are not one
      transaction, so a failing account insert leaves the user behind. */
  datatype Enrolment = Enrolment(store: Store, outcome: Result<nat>)

  /** The controller's age: the difference of the years, less one when the
      birthday has not come yet this year. */
  function Age(birth: Date, today: Date): (age: int)
    ensures OnOrBefore(Anniversary(birth, age), today)
    ensures !OnOrBefore(Anniversary(birth, age + 1), today)
  {
    var age := today.year - birth.year;
    var m := today.month - birth.month;
    if m < 0 || (m == 0 && today.day < birth.day) then age - 1 else age
  }

  /** Calendar order of dates. */
  predicate OnOrBefore(a: Date, b: Date)
  {
    a.year < b.year || (a.year == b.year && (a.month < b.month || (a.month == b.month && a.day <= b.day)))
  }

  function Anniversary(birth: Date, k: int): Date
  {
    Date(birth.year + k, birth.month, birth.day)
  }

  /** Someone is at least k years old exactly when their k-th birthday is
      today or earlier: the controller's age counts completed years. */
  lemma AgeCountsCompletedYears(birth: Date, today: Date, k: int)
    ensures Age(birth, today) >= k <==> OnOrBefore(Anniversary(birth, k), today)
  {
  }

  /** A minor is under 18; on the 18th birthday itself one no longer is. */
  predicate IsMinor(birth: Date, today: Date): (minor: bool)
    ensures minor <==> !OnOrBefore(Anniversary(birth, AdultAge), today)
  {
    Age(birth, today) < AdultAge
  }

  /** Adult from the 18th birthday on, a minor on every date strictly
      before it. The third clause is the eve when the birthday is not the
      first of a month (for the first, day 0 is no calendar date and the
      eve, in the month before, is covered by the second clause). */
  lemma EighteenthBirthdayIsAdult(birth: Date)
    ensures !IsMinor(birth, Anniversary(birth, AdultAge))
    ensures forall today: Date :: !OnOrBefore(Anniversary(birth, AdultAge), today) ==> IsMinor(birth, today)
    ensures IsMinor(birth, Date(birth.year + AdultAge, birth.month, birth.day - 1))
  {
  }

  predicate ReferralCodeTaken(st: Store, code: string)
  {
    exists k :: 0 <= k < |st.users| && st.users[k].referralCode == Some(code)
  }

  predicate IbanTaken(st: Store, iban: string)
  {
    exists k :: 0 <= k < |st.accounts| && st.accounts[k].iban == iban
  }

  /** `register`. The draws of the referral code and of the IBAN, today's
      date and the timestamp are parameters. Failed UNIQUE constraints on
      the generated code or IBAN throw. */
  function Register(st: Store, s: SignUp, today: Date, codeDraw: nat, ibanDraw: nat, now: int): (r: Enrolment)
    requires codeDraw < 10000 && ibanDraw < Pow10(16)
    ensures UserByEmail(st, s.email).Some? ==> r == Enrolment(st, Err(EmailExists))
    ensures UserByEmail(st, s.email).None? && IsMinor(s.dateOfBirth, today) && Truthy(s.parentEmail).None? ==>
      r == Enrolment(st, Err(ParentEmailRequired))
    ensures UserByEmail(st, s.email).None? && (!IsMinor(s.dateOfBirth, today) || Truthy(s.parentEmail).Some?) ==>
      var code := ReferralCode(s.firstName, codeDraw);
      && (ReferralCodeTaken(st, code) ==> r == Enrolment(st, Err(Internal)))
      && (!ReferralCodeTaken(st, code) ==>
        && (r.outcome.Ok? <==> !IbanTaken(st, Iban(ibanDraw)))
        && AppendedOne(st.users, r.store.users)
        && (r.outcome.Err? ==> r.outcome.error == Internal && r.store.accounts == st.accounts))
    ensures r.outcome.Ok? ==>
      && UserByEmail(st, s.email).None?
      && (!IsMinor(s.dateOfBirth, today) || Truthy(s.parentEmail).Some?)
      && AppendedOne(st.users, r.store.users)
      && (var u := r.store.users[|st.users|];
          && u.id == r.outcome.value == st.next.users
          && u.email == s.email && u.firstName == s.firstName && u.lastName == s.lastName
          && u.phone == Truthy(s.phone) && u.dateOfBirth == s.dateOfBirth
          && u.isMinor == IsMinor(s.dateOfBirth, today)
          && u.parentEmail == (if u.isMinor then s.parentEmail else None)
          && u.referralCode == Some(ReferralCode(s.firstName, codeDraw)))
      && AppendedOne(st.accounts, r.store.accounts)
      && (var a := r.store.accounts[|st.accounts|];
          && a.userId == r.outcome.value && a.balance == 0 && a.status == Active
          && a.currency == DefaultCurrency && a.iban == Iban(ibanDraw))
      && r.store.entries == st.entries && r.store.goals == st.goals && r.store.cards == st.cards
      && r.store.notifications == st.notifications && r.store.referrals == st.referrals
  {
    if UserByEmail(st, s.email).Some? then Enrolment(st, Err(EmailExists))
    else
      var minor := IsMinor(s.dateOfBirth, today);
      if minor && Truthy(s.parentEmail).None? then Enrolment(st, Err(ParentEmailRequired))
      else
        var code := ReferralCode(s.firstName, codeDraw);
        if ReferralCodeTaken(st, code) then Enrolment(st, Err(Internal))
        else
          var uid := st.next.users;
          var u := User(uid, s.firstName, s.lastName, s.email, Truthy(s.phone), s.passwordHash, s.dateOfBirth,
                        minor, if minor then s.parentEmail else None, Some(code), now);
          var st1 := st.(users := st.users + [u], next := st.next.(users := uid + 1));
          assert AppendedOne(st.users, st1.users) by {
            assert st1.users[..|st.users|] == st.users;
          }
          var iban := Iban(ibanDraw);
          if IbanTaken(st1, iban) then Enrolment(st1, Err(Internal))
          else
            var a := Account(st1.next.accounts, uid, iban, 0, DefaultCurrency, Active, now);
            Enrolment(st1.(accounts := st1.accounts + [a], next := st1.next.(accounts := st1.next.accounts + 1)), Ok(uid))
  }

  /** Registering the same address again is refused, and leaves the store alone. */
  lemma RegisterOnce(st: Store, s: SignUp, today: Date, codeDraw: nat, ibanDraw: nat, now: int,
                     s2: SignUp, today2: Date, codeDraw2: nat, ibanDraw2: nat, later: int)
    requires codeDraw < 10000 && ibanDraw < Pow10(16) && codeDraw2 < 10000 && ibanDraw2 < Pow10(16)
    requires Register(st, s, today, codeDraw, ibanDraw, now).outcome.Ok?
    requires s2.email == s.email
    ensures var st1 := Register(st, s, today, codeDraw, ibanDraw, now).store;
      Register(st1, s2, today2, codeDraw2, ibanDraw2, later) == Enrolment(st1, Err(EmailExists))
  {
    var st1 := Register(st, s, today, codeDraw, ibanDraw, now).store;
    assert st1.users[|st.users|].email == s.email;
  }
}

=== FILE: savings.dfy ===
/** `savings.controller.js`: savings goals, and the deposit / withdraw /
    delete operations that move money between the account balance and a goal. */
module Savings {
  import opened Outcomes
  import opened Seqs
  import opened Schema

  const DepositLabel: string := "Épargne : "
  const WithdrawLabel: string := "Retrait épargne : "

  /** The body of a create request, amounts already in cents. */
  datatype GoalDraft = GoalDraft(
    name: string,
    target: int,
    icon: Option<string>,
    color: Option<string>,
    deadline: Option<string>,
    autoSaveAmount: Option<int>,
    autoSaveEnabled: bool)

  /** The body of an update request: None for a field the request leaves out. */
  datatype GoalPatch = GoalPatch(
    name: Option<string>,
    target: Option<int>,
    icon: Option<string>,
    color: Option<string>,
    deadline: Option<string>,
    autoSaveAmount: Option<int>,
    autoSaveEnabled: Option<bool>)

  /** Half-way cases round away from zero, as `toFixed` does. */
  function RoundDiv(n: int, d: int): int
    requires d != 0
  {
    var an := if n < 0 then -n else n;
    var ad := if d < 0 then -d else d;
    var q := (2 * an + ad) / (2 * ad);
    if (n < 0) != (d < 0) then -q else q
  }

  /** `formatGoal`'s progress, in tenths of a percent: current / target * 100
      rounded to one decimal. None where JavaScript produces NaN or Infinity
      (a zero target), which JSON sends as null. */
  function Progress(g: Goal): (r: Option<int>)
    ensures r.None? <==> g.target == 0
    ensures g.target != 0 && g.current == 0 ==> r == Some(0)
    ensures g.target > 0 && g.current == g.target ==> r == Some(1000)
  {
    if g.target == 0 then None
    else
      FullIsThousand(g.target);
      Some(RoundDiv(1000 * g.current, g.target))
  }

  /** A goal that holds exactly its target shows 100.0 %. */
  lemma FullIsThousand(t: int)
    requires t != 0
    ensures t > 0 ==> RoundDiv(1000 * t, t) == 1000
  {
    if t > 0 {
      QuotientOf(2 * (1000 * t) + t, 2 * t, 1000);
    }
  }

  /** Integer division finds the one q with q * d <= a < (q + 1) * d. */
  lemma QuotientOf(a: int, d: int, q: int)
    requires d > 0 && q * d <= a < q * d + d
    ensures a / d == q
  {
    var q0, r0 := a / d, a % d;
    assert a == q0 * d + r0 && 0 <= r0 < d;
    if q0 < q {
      ScaleUp(q0 + 1, q, d);
      assert false;
    } else if q0 > q {
      ScaleUp(q + 1, q0, d);
      assert false;
    }
  }

  lemma ScaleUp(a: int, b: int, d: int)
    requires a <= b && d > 0
    ensures a * d <= b * d && (a + 1) * d == a * d + d
  {
  }

  /** For a non-negative amount and a positive target, the progress p is the
      nearest tenth: p - 1/2 <= 1000 * current / target < p + 1/2. */
  lemma ProgressIsNearestTenth(g: Goal)
    requires g.current >= 0 && g.target > 0
    ensures Progress(g).Some?
    ensures var p := Progress(g).value;
      p >= 0 && (2 * p - 1) * g.target <= 2000 * g.current < (2 * p + 1) * g.target
  {
    var n, d := 1000 * g.current, g.target;
    var q := (2 * n + d) / (2 * d);
    var rem := (2 * n + d) % (2 * d);
    assert 2 * n + d == q * (2 * d) + rem && 0 <= rem < 2 * d;
    assert (2 * q - 1) * d == q * (2 * d) - d;
    assert (2 * q + 1) * d == q * (2 * d) + d;
  }

  /** A goal as `formatGoal` returns it: the row and its progress. */
  datatype GoalView = GoalView(goal: Goal, progress: Option<int>)

  function GoalCreatedAt(g: Goal): int
  {
    g.createdAt
  }

  function ViewsOf(gs: seq<Goal>): (r: seq<GoalView>)
    ensures |r| == |gs|
    ensures forall k :: 0 <= k < |gs| ==> r[k] == GoalView(gs[k], Progress(gs[k]))
  {
    if |gs| == 0 then [] else [GoalView(gs[0], Progress(gs[0]))] + ViewsOf(gs[1..])
  }

  function Mine(st: Store, uid: nat): seq<Goal>
  {
    Filter(st.goals, (g: Goal) => g.userId == uid)
  }

  /** `getGoals`: every goal of the caller, newest first, each with its progress. */
  function GetGoals(st: Store, uid: nat): (r: seq<GoalView>)
    ensures |r| == |Mine(st, uid)|
    ensures forall k :: 0 <= k < |r| ==>
      (r[k].goal in st.goals && r[k].goal.userId == uid && r[k].progress == Progress(r[k].goal))
    ensures forall g :: g in st.goals && g.userId == uid ==> exists k :: 0 <= k < |r| && r[k].goal == g
    ensures forall j, k :: 0 <= j < k < |r| ==> r[j].goal.createdAt >= r[k].goal.createdAt
  {
    var ordered := SortDesc(Mine(st, uid), GoalCreatedAt);
    GoalsListed(st, uid, ordered);
    ViewsOf(ordered)
  }

  lemma GoalsListed(st: Store, uid: nat, ordered: seq<Goal>)
    requires ordered == SortDesc(Mine(st, uid), GoalCreatedAt)
    ensures |ordered| == |Mine(st, uid)|
    ensures forall g :: g in ordered <==> g in st.goals && g.userId == uid
    ensures forall j, k :: 0 <= j < k < |ordered| ==> ordered[j].createdAt >= ordered[k].createdAt
  {
    var mine := Mine(st, uid);
    assert |multiset(ordered)| == |multiset(mine)|;
    SameElements(ordered, mine);
    forall j, k | 0 <= j < k < |ordered| ensures ordered[j].createdAt >= ordered[k].createdAt {
      assert GoalCreatedAt(ordered[j]) >= GoalCreatedAt(ordered[k]);
    }
  }

  /** `createGoal`: a new goal of the caller with nothing saved yet. */
  function CreateGoal(st: Store, uid: nat, d: GoalDraft, now: int): (r: Store)
    requires d.target >= 100
    ensures AppendedOne(st.goals, r.goals)
    ensures var g := r.goals[|st.goals|];
      && g.id == st.next.goals && g.userId == uid && g.name == d.name && g.target == d.target
      && g.current == 0
      && g.icon == Coalesce(Truthy(d.icon), DefaultGoalIcon)
      && g.color == Coalesce(Truthy(d.color), DefaultGoalColor)
      && g.deadline == Truthy(d.deadline)
      && g.autoSaveAmount == Coalesce(d.autoSaveAmount, 0)
      && g.autoSaveEnabled == d.autoSaveEnabled
    ensures r.next.goals > st.next.goals
    ensures r.users == st.users && r.accounts == st.accounts && r.entries == st.entries
      && r.cards == st.cards && r.notifications == st.notifications && r.referrals == st.referrals
  {
    var g := Goal(st.next.goals, uid, d.name, d.target, 0,
                  Coalesce(Truthy(d.icon), DefaultGoalIcon), Coalesce(Truthy(d.color), DefaultGoalColor),
                  Truthy(d.deadline), Coalesce(d.autoSaveAmount, 0), d.autoSaveEnabled, now);
    st.(goals := st.goals + [g], next := st.next.(goals := st.next.goals + 1))
  }

  /** The COALESCE update of one goal. Text fields go through `||` (an empty
      string counts as omitted); the amounts and the flag through `!= null`. */
  function Patched(g: Goal, p: GoalPatch): (h: Goal)
    ensures h.id == g.id && h.userId == g.userId && h.current == g.current && h.createdAt == g.createdAt
    ensures h.name == (if Truthy(p.name).Some? then p.name.value else g.name)
    ensures h.icon == (if Truthy(p.icon).Some? then p.icon.value else g.icon)
    ensures h.color == (if Truthy(p.color).Some? then p.color.value else g.color)
    ensures h.deadline == (if Truthy(p.deadline).Some? then p.deadline else g.deadline)
    ensures h.target == (if p.target.Some? then p.target.value else g.target)
    ensures h.autoSaveAmount == (if p.autoSaveAmount.Some? then p.autoSaveAmount.value else g.autoSaveAmount)
    ensures h.autoSaveEnabled == (if p.autoSaveEnabled.Some? then p.autoSaveEnabled.value else g.autoSaveEnabled)
  {
    g.(name := Coalesce(Truthy(p.name), g.name),
       target := Coalesce(p.target, g.target),
       icon := Coalesce(Truthy(p.icon), g.icon),
       color := Coalesce(Truthy(p.color), g.color),
       deadline := if Truthy(p.deadline).Some? then Truthy(p.deadline) else g.deadline,
       autoSaveAmount := Coalesce(p.autoSaveAmount, g.autoSaveAmount),
       autoSaveEnabled := Coalesce(p.autoSaveEnabled, g.autoSaveEnabled))
  }

  /** `updateGoal`. */
  function UpdateGoal(st: Store, uid: nat, gid: nat, p: GoalPatch): (r: Result<Store>)
    ensures GoalOf(st, uid, gid).None? <==> r == Err(GoalNotFound)
    ensures r.Err? ==> r.error == GoalNotFound
    ensures r.Ok? ==>
      var i := GoalOf(st, uid, gid).value;
      && SameExcept(st.goals, r.value.goals, i)
      && r.value.goals[i] == Patched(st.goals[i], p)
      && r.value.accounts == st.accounts && r.value.entries == st.entries
      && r.value.users == st.users && r.value.cards == st.cards
      && r.value.notifications == st.notifications && r.value.referrals == st.referrals
  {
    match GoalOf(st, uid, gid)
    case None => Err(GoalNotFound)
    case Some(i) => Ok(st.(goals := st.goals[i := Patched(st.goals[i], p)]))
  }

  /** Applying the same update twice is the same as applying it once. */
  lemma PatchIdempotent(g: Goal, p: GoalPatch)
    ensures Patched(Patched(g, p), p) == Patched(g, p)
  {
  }

  /** An update that supplies nothing leaves the goal as it was. */
  lemma EmptyPatchKeepsGoal(g: Goal)
    ensures Patched(g, GoalPatch(None, None, None, None, None, None, None)) == g
  {
  }

  /** `deposit`: `amount` cents move from the account balance into the goal,
      logged as a completed `debit` of category `other`. The goal may end up
      above its target. */
  function Deposit(st: Store, uid: nat, gid: nat, amount: int, now: int): (r: Result<Store>)
    requires amount >= 1
    ensures GoalOf(st, uid, gid).None? ==> r == Err(GoalNotFound)
    ensures GoalOf(st, uid, gid).Some? && AccountOf(st, uid).None? ==> r == Err(AccountNotFound)
    ensures GoalOf(st, uid, gid).Some? && AccountOf(st, uid).Some? ==>
      var gi, ai := GoalOf(st, uid, gid).value, AccountOf(st, uid).value;
      var g, a := st.goals[gi], st.accounts[ai];
      && (a.balance < amount <==> r == Err(InsufficientFunds))
      && (r.Ok? <==> a.balance >= amount)
      && (r.Ok? ==>
        && SameExcept(st.accounts, r.value.accounts, ai)
        && SameExcept(st.goals, r.value.goals, gi)
        && r.value.accounts[ai] == a.(balance := a.balance - amount)
        && r.value.goals[gi] == g.(current := g.current + amount)
        && r.value.accounts[ai].balance + r.value.goals[gi].current == a.balance + g.current
        && AppendedOne(st.entries, r.value.entries)
        && r.value.entries[|st.entries|]
           == Entry(st.next.entries, a.id, Debit, amount, DefaultCurrency, DepositLabel + g.name,
                    Other, None, None, Completed, now)
        && r.value.users == st.users && r.value.cards == st.cards
        && r.value.notifications == st.notifications && r.value.referrals == st.referrals
        && r.value.next == st.next.(entries := st.next.entries + 1))
  {
    match GoalOf(st, uid, gid)
    case None => Err(GoalNotFound)
    case Some(gi) =>
      match AccountOf(st, uid)
      case None => Err(AccountNotFound)
      case Some(ai) =>
        var g, a := st.goals[gi], st.accounts[ai];
        if a.balance < amount then Err(InsufficientFunds)
        else
          var e := Entry(st.next.entries, a.id, Debit, amount, DefaultCurrency, DepositLabel + g.name,
                         Other, None, None, Completed, now);
          Ok(st.(accounts := st.accounts[ai := a.(balance := a.balance - amount)],
                 goals := st.goals[gi := g.(current := g.current + amount)],
                 entries := st.entries + [e],
                 next := st.next.(entries := st.next.entries + 1)))
  }

  /** `withdraw`: `amount` cents move from the goal back to the account
      balance, logged as a completed `credit`. The account is looked up only
      after the savings check and is not null-checked: without one the
      transaction body throws and rolls back. */
  function Withdraw(st: Store, uid: nat, gid: nat, amount: int, now: int): (r: Result<Store>)
    requires amount >= 1
    ensures GoalOf(st, uid, gid).None? ==> r == Err(GoalNotFound)
    ensures GoalOf(st, uid, gid).Some? ==>
      var gi := GoalOf(st, uid, gid).value;
      var g := st.goals[gi];
      && (g.current < amount <==> r == Err(InsufficientSavings))
      && (g.current >= amount && AccountOf(st, uid).None? ==> r == Err(Internal))
      && (r.Ok? <==> g.current >= amount && AccountOf(st, uid).Some?)
      && (r.Ok? ==>
        var ai := AccountOf(st, uid).value;
        var a := st.accounts[ai];
        && SameExcept(st.accounts, r.value.accounts, ai)
        && SameExcept(st.goals, r.value.goals, gi)
        && r.value.accounts[ai] == a.(balance := a.balance + amount)
        && r.value.goals[gi] == g.(current := g.current - amount)
        && r.value.accounts[ai].balance + r.value.goals[gi].current == a.balance + g.current
        && AppendedOne(st.entries, r.value.entries)
        && r.value.entries[|st.entries|]
           == Entry(st.next.entries, a.id, Credit, amount, DefaultCurrency, WithdrawLabel + g.name,
                    Other, None, None, Completed, now)
        && r.value.users == st.users && r.value.cards == st.cards
        && r.value.notifications == st.notifications && r.value.referrals == st.referrals
        && r.value.next == st.next.(entries := st.next.entries + 1))
  {
    match GoalOf(st, uid, gid)
    case None => Err(GoalNotFound)
    case Some(gi) =>
      var g := st.goals[gi];
      if g.current < amount then Err(InsufficientSavings)
      else
        match AccountOf(st, uid)
        case None => Err(Internal)
        case Some(ai) =>
          var a := st.accounts[ai];
          var e := Entry(st.next.entries, a.id, Credit, amount, DefaultCurrency, WithdrawLabel + g.name,
                         Other, None, None, Completed, now);
          Ok(st.(accounts := st.accounts[ai := a.(balance := a.balance + amount)],
                 goals := st.goals[gi := g.(current := g.current - amount)],
                 entries := st.entries + [e],
                 next := st.next.(entries := st.next.entries + 1)))
  }

  function WithoutGoal(goals: seq<Goal>, gid: nat): (r: seq<Goal>)
    ensures forall j :: 0 <= j < |r| ==> r[j].id != gid
    ensures forall g :: g in r <==> g in goals && g.id != gid
  {
    Filter(goals, (g: Goal) => g.id != gid)
  }

  /** `deleteGoal`: whatever the goal holds goes back to the account balance,
      then the goal row is deleted. The refund writes no log entry and, when
      the goal is empty, the account is not even read. */
  function DeleteGoal(st: Store, uid: nat, gid: nat): (r: Result<Store>)
    ensures GoalOf(st, uid, gid).None? ==> r == Err(GoalNotFound)
    ensures GoalOf(st, uid, gid).Some? ==>
      var g := st.goals[GoalOf(st, uid, gid).value];
      && (g.current > 0 && AccountOf(st, uid).None? <==> r == Err(Internal))
      && (r.Ok? <==> !(g.current > 0 && AccountOf(st, uid).None?))
      && (r.Ok? ==>
        && r.value.goals == WithoutGoal(st.goals, gid)
        && GoalOf(r.value, uid, gid).None?
        && r.value.entries == st.entries
        && (g.current <= 0 ==> r.value.accounts == st.accounts)
        && (g.current > 0 ==>
            var ai := AccountOf(st, uid).value;
            var a := st.accounts[ai];
            && SameExcept(st.accounts, r.value.accounts, ai)
            && r.value.accounts[ai] == a.(balance := a.balance + g.current))
        && r.value.users == st.users && r.value.cards == st.cards
        && r.value.notifications == st.notifications && r.value.referrals == st.referrals)
    ensures r.Ok? || r.error == GoalNotFound || r.error == Internal
  {
    match GoalOf(st, uid, gid)
    case None => Err(GoalNotFound)
    case Some(gi) =>
      var g := st.goals[gi];
      if g.current > 0 then
        match AccountOf(st, uid)
        case None => Err(Internal)
        case Some(ai) =>
          var a := st.accounts[ai];
          Ok(st.(accounts := st.accounts[ai := a.(balance := a.balance + g.current)],
                 goals := WithoutGoal(st.goals, gid)))
      else
        Ok(st.(goals := WithoutGoal(st.goals, gid)))
  }
}

=== FILE: scenarios.dfy ===
/** Worked examples on the demo data of the seed script: Eli's account
    with 1 847,32 € and the "Voyage Tokyo" goal at 780 € of 2 500 €. */
module Scenarios {
  import opened Outcomes
  import opened Text
  import opened Schema
  import opened Transactions
  import opened Savings
  import opened Cards
  import opened Formats
  import opened Registration

  /** The demo user. The seed script inserts the row without a referral
      code, so the column stays NULL; `AEGIS-ELI2847` is the code of the
      seeded referral row instead. */
  const Eli: User := User(1, "Eli", "Saïdi", "eli@aegisbank.io", Some("+32 470 12 34 56"), "hash",
                          Date(2003, 10, 8), false, None, None, 0)

  function EliAccount(balance: int): Account
  {
    Account(1, 1, "BE68 5390 0754 7034", balance, DefaultCurrency, Active, 0)
  }

  function Tokyo(current: int): Goal
  {
    Goal(1, 1, "Voyage Tokyo", 250000, current, "plane", "#34F288", Some("2026-08-01"), 5000, true, 0)
  }

  function Demo(balance: int, current: int): Store
  {
    EmptyStore.(users := [Eli], accounts := [EliAccount(balance)], goals := [Tokyo(current)],
                next := NextIds(2, 2, 1, 2, 1, 1, 1))
  }

  /** Sending 25 € out of 1 847,32 € leaves 1 822,32 € and logs a transfer to the IBAN. */
  lemma TransferFromDemo()
    ensures var r := Transactions.Transfer(Demo(184732, 78000), 1, 2500, "BE68 1234 5678 9012", None, "25", 10);
      && r.Ok?
      && r.value.accounts[0].balance == 182232
      && r.value.entries == [Entry(1, 1, TransferOut, 2500, DefaultCurrency, TransferLabel, Category.Transfer,
                                   None, Some("BE68 1234 5678 9012"), Completed, 10)]
  {
  }

  /** Putting 50 € into the goal brings it to 830 €, 33.2 % of the target. */
  lemma DepositIntoTokyo()
    ensures var r := Deposit(Demo(184732, 78000), 1, 1, 5000, 10);
      && r.Ok?
      && r.value.goals[0].current == 83000
      && r.value.accounts[0].balance == 179732
      && Progress(r.value.goals[0]) == Some(332)
  {
    assert RoundDiv(1000 * 83000, 250000) == 332;
  }

  /** Taking 150 € out of a goal holding 100 € is refused. */
  lemma WithdrawTooMuch()
    ensures Withdraw(Demo(184732, 10000), 1, 1, 15000, 10) == Err(InsufficientSavings)
  {
  }

  /** Deleting a goal holding 420 € gives the 420 € back, and the goal is gone. */
  lemma DeleteFullGoal()
    ensures var r := DeleteGoal(Demo(184732, 42000), 1, 1);
      && r.Ok?
      && r.value.accounts[0].balance == 184732 + 42000
      && r.value.entries == []
      && Deposit(r.value, 1, 1, 100, 10) == Err(GoalNotFound)
  {
  }

  /** Sending 100 € from 50 € is refused; so is any transfer from a frozen account. */
  lemma TransferRefused()
    ensures Transactions.Transfer(Demo(5000, 0), 1, 10000, "BE68 1234 5678 9012", None, "100", 10) == Err(InsufficientFunds)
    ensures Transactions.Transfer(Demo(5000, 0).(accounts := [EliAccount(5000).(status := Frozen)]), 1, 100,
                                  "BE68 1234 5678 9012", None, "1", 10) == Err(AccountInactive)
  {
  }

  /** Someone born on 9 October 2008 comes of age on 9 October 2026, not a day earlier. */
  lemma ComingOfAge()
    ensures !IsMinor(Date(2008, 10, 9), Date(2026, 10, 9))
    ensures IsMinor(Date(2008, 10, 9), Date(2026, 10, 8))
    ensures Age(Date(2003, 10, 8), Date(2026, 10, 9)) == 23
  {
  }

  /** The masked number drawn from 42. */
  lemma MaskedExample()
    ensures MaskedNumber(42) == "**** **** **** 0042"
  {
    assert DecimalString(4) == "4";
    assert DecimalString(42) == "42";
    assert PadStart("42", 4, '0') == "0042";
  }

  /** A card created in 2026 with the first month drawn expires in January 2029. */
  lemma ExpiryExample()
    ensures Expiry(0, 2026) == "01/29"
  {
    assert DecimalString(1) == "1";
    assert PadStart("1", 2, '0') == "01";
    assert DecimalString(2) == "2";
    assert DecimalString(20) == "20";
    assert DecimalString(202) == "202";
    assert DecimalString(2029) == "2029";
  }

  /** The code of Eli's seeded referral row is one the generator can produce. */
  lemma ReferralCodeExample()
    ensures ReferralCode("Eli", 2847) == "AEGIS-ELI2847"
  {
    EliLetters();
    Digits2847();
    assert CodePrefix + "ELI" + "2847" == "AEGIS-ELI2847";
  }

  lemma EliLetters()
    ensures TakeAtMost(Upper("Eli"), 3) == "ELI"
  {
    assert Upper("Eli") == "ELI";
  }

  lemma Digits2847()
    ensures DecimalString(2847) == "2847"
  {
    assert DecimalString(2) == "2";
    assert DecimalString(28) == "28";
    assert DecimalString(284) == "284";
  }
}

=== FILE: schema.dfy ===
/** The rows of the SQLite schema (users, accounts, transactions, cards,
    savings_goals, referrals, notifications) as immutable datatypes, the
    whole database as one `Store` value, and the lookups every controller
    starts with. Money is an integer number of cents throughout. */
module Schema {
  import opened Outcomes
  import opened Seqs

  /** A calendar date as the controllers read it from a JavaScript `Date`. */
  datatype Date = Date(year: int, month: int, day: int)

  datatype User = User(
    id: nat,
    firstName: string,
    lastName: string,
    email: string,
    phone: Option<string>,
    passwordHash: string,
    dateOfBirth: Date,
    isMinor: bool,
    parentEmail: Option<string>,
    referralCode: Option<string>,
    createdAt: int)

  datatype AccountStatus = Active | Frozen | Closed

  datatype Account = Account(
    id: nat,
    userId: nat,
    iban: string,
    balance: int,
    currency: string,
    status: AccountStatus,
    createdAt: int)

  /** `transactions.type`. The sign of a movement is carried by the type;
      the amount is never negative. */
  datatype EntryType = Credit | Debit | TransferIn | TransferOut | Cashback

  datatype Category =
    Food | Transport | Shopping | Entertainment | Salary | Transfer | Subscription | Other

  datatype EntryStatus = Completed | Pending

  /** One row of the `transactions` table (a ledger entry). */
  datatype Entry = Entry(
    id: nat,
    accountId: nat,
    kind: EntryType,
    amount: nat,
    currency: string,
    description: string,
    category: Category,
    counterpartName: Option<string>,
    counterpartIban: Option<string>,
    status: EntryStatus,
    createdAt: int)

  datatype Goal = Goal(
    id: nat,
    userId: nat,
    name: string,
    target: int,
    current: int,
    icon: string,
    color: string,
    deadline: Option<string>,
    autoSaveAmount: int,
    autoSaveEnabled: bool,
    createdAt: int)

  datatype CardKind = Physical | Virtual

  datatype CardStatus = ActiveCard | FrozenCard | BlockedCard

  datatype Card = Card(
    id: nat,
    accountId: nat,
    kind: CardKind,
    maskedNumber: string,
    expiry: string,
    status: CardStatus,
    dailyLimit: int,
    monthlyLimit: int,
    contactless: bool,
    onlinePayments: bool,
    createdAt: int)

  datatype Notification = Notification(
    id: nat,
    userId: nat,
    kind: string,
    title: string,
    message: string,
    isRead: bool,
    createdAt: int)

  datatype ReferralStatus = ReferralPending | Registered | Rewarded

  datatype Referral = Referral(
    id: nat,
    referrerId: nat,
    email: string,
    code: string,
    status: ReferralStatus,
    reward: nat,
    createdAt: int)

  /** The next AUTOINCREMENT id of each table. */
  datatype NextIds = NextIds(
    users: nat, accounts: nat, entries: nat, goals: nat,
    cards: nat, notifications: nat, referrals: nat)

  /** The database: each table in rowid order. */
  datatype Store = Store(
    users: seq<User>,
    accounts: seq<Account>,
    entries: seq<Entry>,
    goals: seq<Goal>,
    cards: seq<Card>,
    notifications: seq<Notification>,
    referrals: seq<Referral>,
    next: NextIds)

  // Column defaults of the schema.
  const DefaultCurrency: string := "EUR"
  const DefaultDailyLimit: int := 50000
  const DefaultMonthlyLimit: int := 250000
  const DefaultReward: nat := 500
  const DefaultGoalIcon: string := "target"
  const DefaultGoalColor: string := "#34F288"

  /** A freshly initialised database: every table empty, every sequence at 1. */
  const EmptyStore: Store :=
    Store([], [], [], [], [], [], [], NextIds(1, 1, 1, 1, 1, 1, 1))

  /** The text stored in `transactions.type`. */
  function TypeName(k: EntryType): string
  {
    match k
    case Credit => "credit"
    case Debit => "debit"
    case TransferIn => "transfer_in"
    case TransferOut => "transfer_out"
    case Cashback => "cashback"
  }

  /** The text stored in `transactions.category`. */
  function CategoryName(c: Category): string
  {
    match c
    case Food => "food"
    case Transport => "transport"
    case Shopping => "shopping"
    case Entertainment => "entertainment"
    case Salary => "salary"
    case Transfer => "transfer"
    case Subscription => "subscription"
    case Other => "other"
  }

  /** Money coming in: `type IN ('credit', 'transfer_in', 'cashback')`. */
  predicate IsIncome(k: EntryType)
  {
    k == Credit || k == TransferIn || k == Cashback
  }

  /** Money going out: `type IN ('debit', 'transfer_out')`. */
  predicate IsExpense(k: EntryType)
  {
    k == Debit || k == TransferOut
  }

  /** The two type sets split every type: each entry counts on exactly one side. */
  lemma IncomeExpensePartition(k: EntryType)
    ensures IsIncome(k) != IsExpense(k)
  {
    match k
    case Credit =>
    case Debit =>
    case TransferIn =>
    case TransferOut =>
    case Cashback =>
  }

  /** What the engine keeps true: no account balance and no goal amount below zero. */
  ghost predicate Valid(st: Store)
  {
    && (forall i :: 0 <= i < |st.accounts| ==> st.accounts[i].balance >= 0)
    && (forall i :: 0 <= i < |st.goals| ==> st.goals[i].current >= 0)
  }

  // Lookups. Each is the WHERE clause of a `.get()`; the first matching row wins.

  /** `SELECT * FROM accounts WHERE user_id = ?`. */
  function AccountOf(st: Store, uid: nat): (r: Option<nat>)
    ensures r.Some? ==> r.value < |st.accounts| && st.accounts[r.value].userId == uid
    ensures r.Some? ==> forall j :: 0 <= j < r.value ==> st.accounts[j].userId != uid
    ensures r.None? <==> forall j :: 0 <= j < |st.accounts| ==> st.accounts[j].userId != uid
  {
    FirstIndex(st.accounts, (a: Account) => a.userId == uid)
  }

  /** `SELECT * FROM users WHERE id = ?`. */
  function UserById(st: Store, uid: nat): (r: Option<nat>)
    ensures r.Some? ==> r.value < |st.users| && st.users[r.value].id == uid
    ensures r.None? <==> forall j :: 0 <= j < |st.users| ==> st.users[j].id != uid
  {
    FirstIndex(st.users, (u: User) => u.id == uid)
  }

  /** `SELECT id FROM users WHERE email = ?`. */
  function UserByEmail(st: Store, email: string): (r: Option<nat>)
    ensures r.Some? ==> r.value < |st.users| && st.users[r.value].email == email
    ensures r.None? <==> forall j :: 0 <= j < |st.users| ==> st.users[j].email != email
  {
    FirstIndex(st.users, (u: User) => u.email == email)
  }

  /** `SELECT * FROM savings_goals WHERE id = ? AND user_id = ?`: a goal of
      another user is not found, exactly like a missing one. */
  function GoalOf(st: Store, uid: nat, gid: nat): (r: Option<nat>)
    ensures r.Some? ==> r.value < |st.goals| && st.goals[r.value].id == gid && st.goals[r.value].userId == uid
    ensures r.None? <==> forall j :: 0 <= j < |st.goals| ==> !(st.goals[j].id == gid && st.goals[j].userId == uid)
  {
    FirstIndex(st.goals, (g: Goal) => g.id == gid && g.userId == uid)
  }

  /** `SELECT * FROM cards WHERE id = ? AND account_id = ?`. */
  function CardOf(st: Store, accountId: nat, cid: nat): (r: Option<nat>)
    ensures r.Some? ==> r.value < |st.cards| && st.cards[r.value].id == cid && st.cards[r.value].accountId == accountId
    ensures r.None? <==> forall j :: 0 <= j < |st.cards| ==> !(st.cards[j].id == cid && st.cards[j].accountId == accountId)
  {
    FirstIndex(st.cards, (c: Card) => c.id == cid && c.accountId == accountId)
  }

  /** `SELECT * FROM notifications WHERE id = ? AND user_id = ?`. */
  function NotificationOf(st: Store, uid: nat, nid: nat): (r: Option<nat>)
    ensures r.Some? ==> r.value < |st.notifications| && st.notifications[r.value].id == nid && st.notifications[r.value].userId == uid
    ensures r.None? <==> forall j :: 0 <= j < |st.notifications| ==> !(st.notifications[j].id == nid && st.notifications[j].userId == uid)
  {
    FirstIndex(st.notifications, (n: Notification) => n.id == nid && n.userId == uid)
  }

  /** `SELECT * FROM transactions WHERE id = ? AND account_id = ?`. */
  function EntryOf(st: Store, accountId: nat, tid: nat): (r: Option<nat>)
    ensures r.Some? ==> r.value < |st.entries| && st.entries[r.value].id == tid && st.entries[r.value].accountId == accountId
    ensures r.None? <==> forall j :: 0 <= j < |st.entries| ==> !(st.entries[j].id == tid && st.entries[j].accountId == accountId)
  {
    FirstIndex(st.entries, (e: Entry) => e.id == tid && e.accountId == accountId)
  }

  /** `SELECT id FROM referrals WHERE referrer_id = ? AND referred_email = ?`. */
  function InvitationOf(st: Store, uid: nat, email: string): (r: Option<nat>)
    ensures r.Some? ==> r.value < |st.referrals| && st.referrals[r.value].referrerId == uid && st.referrals[r.value].email == email
    ensures r.None? <==> forall j :: 0 <= j < |st.referrals| ==> !(st.referrals[j].referrerId == uid && st.referrals[j].email == email)
  {
    FirstIndex(st.referrals, (f: Referral) => f.referrerId == uid && f.email == email)
  }

  /** `SELECT referral_code FROM referrals WHERE referrer_id = ? LIMIT 1`. */
  function FirstReferralOf(st: Store, uid: nat): (r: Option<nat>)
    ensures r.Some? ==> r.value < |st.referrals| && st.referrals[r.value].referrerId == uid
    ensures r.Some? ==> forall j :: 0 <= j < r.value ==> st.referrals[j].referrerId != uid
    ensures r.None? <==> forall j :: 0 <= j < |st.referrals| ==> st.referrals[j].referrerId != uid
  {
    FirstIndex(st.referrals, (f: Referral) => f.referrerId == uid)
  }

  /** The balance of the caller's account, when there is one. */
  function BalanceOf(st: Store, uid: nat): Option<int>
  {
    match AccountOf(st, uid)
    case Some(i) => Some(st.accounts[i].balance)
    case None => None
  }
}

=== FILE: seqs.dfy ===
/** Sequence operations the SQL queries of the controllers reduce to: the
    first row matching a WHERE clause, SUM/COUNT over matching rows,
    ORDER BY ... DESC, DISTINCT and LIMIT/OFFSET. */
module Seqs {
  import opened Outcomes

  /** Index of the first element satisfying `p`, as `.get()` on a query
      returns the first matching row in rowid order. */
  function FirstIndex<T>(s: seq<T>, p: T -> bool): (r: Option<nat>)
    ensures r.Some? ==> r.value < |s| && p(s[r.value])
    ensures r.Some? ==> forall j :: 0 <= j < r.value ==> !p(s[j])
    ensures r.None? <==> forall j :: 0 <= j < |s| ==> !p(s[j])
  {
    if |s| == 0 then None
    else if p(s[0]) then Some(0)
    else match FirstIndex(s[1..], p)
      case None => None
      case Some(k) => Some(k + 1)
  }

  /** Rewriting rows without changing which of them match leaves the
      first match where it was. */
  lemma FirstIndexAgrees<T>(s: seq<T>, s2: seq<T>, p: T -> bool)
    requires |s| == |s2|
    requires forall k :: 0 <= k < |s| ==> p(s[k]) == p(s2[k])
    ensures FirstIndex(s, p) == FirstIndex(s2, p)
  {
  }

  /** SUM(f(x)) over the sequence; rows the WHERE clause rejects contribute 0. */
  function Sum<T>(s: seq<T>, f: T -> nat): nat
  {
    if |s| == 0 then 0 else f(s[0]) + Sum(s[1..], f)
  }

  lemma {:induction false} SumAppend<T>(a: seq<T>, b: seq<T>, f: T -> nat)
    ensures Sum(a + b, f) == Sum(a, f) + Sum(b, f)
  {
    if |a| == 0 {
      assert a + b == b;
    } else {
      assert (a + b)[1..] == a[1..] + b;
      SumAppend(a[1..], b, f);
    }
  }

  /** A sum over rows that all contribute nothing is 0 (the COALESCE(SUM, 0) case). */
  lemma {:induction false} SumOfZeros<T>(s: seq<T>, f: T -> nat)
    requires forall i :: 0 <= i < |s| ==> f(s[i]) == 0
    ensures Sum(s, f) == 0
  {
    if |s| > 0 {
      SumOfZeros(s[1..], f);
    }
  }

  /** Every row is counted in full: the sum is at least each row's part. */
  lemma {:induction false} SumBoundsEach<T>(s: seq<T>, f: T -> nat)
    ensures forall k :: 0 <= k < |s| ==> Sum(s, f) >= f(s[k])
  {
    if |s| > 0 {
      SumBoundsEach(s[1..], f);
      forall k | 1 <= k < |s|
        ensures Sum(s, f) >= f(s[k])
      {
        assert s[1..][k - 1] == s[k];
      }
    }
  }

  /** A sum is 0 exactly when every row contributes nothing. */
  lemma SumZeroIff<T>(s: seq<T>, f: T -> nat)
    ensures Sum(s, f) == 0 <==> forall k :: 0 <= k < |s| ==> f(s[k]) == 0
  {
    SumBoundsEach(s, f);
    if forall k :: 0 <= k < |s| ==> f(s[k]) == 0 {
      SumOfZeros(s, f);
    }
  }

  /** Two row functions that agree on every row give the same sum. */
  lemma {:induction false} SumCongruent<T>(s: seq<T>, f: T -> nat, g: T -> nat)
    requires forall i :: 0 <= i < |s| ==> f(s[i]) == g(s[i])
    ensures Sum(s, f) == Sum(s, g)
  {
    if |s| > 0 {
      SumCongruent(s[1..], f, g);
    }
  }

  /** A signed sum, for columns such as balances that the schema does not
      keep non-negative. */
  function SumInt<T>(s: seq<T>, f: T -> int): int
  {
    if |s| == 0 then 0 else f(s[0]) + SumInt(s[1..], f)
  }

  /** A filter every element passes keeps the sequence whole. */
  lemma {:induction false} FilterAll<T(!new)>(s: seq<T>, p: T -> bool)
    requires forall j :: 0 <= j < |s| ==> p(s[j])
    ensures Filter(s, p) == s
  {
    if |s| > 0 {
      FilterAll(s[1..], p);
      assert s == [s[0]] + s[1..];
    }
  }

  /** A filter that drops exactly one row lowers a signed sum by that row. */
  lemma {:induction false} SumIntFilterOne<T(!new)>(s: seq<T>, k: nat, p: T -> bool, f: T -> int)
    requires k < |s| && !p(s[k])
    requires forall j :: 0 <= j < |s| && j != k ==> p(s[j])
    ensures SumInt(Filter(s, p), f) == SumInt(s, f) - f(s[k])
  {
    if k == 0 {
      FilterAll(s[1..], p);
    } else {
      SumIntFilterOne(s[1..], k - 1, p, f);
      var rest := Filter(s[1..], p);
      assert ([s[0]] + rest)[1..] == rest;
    }
  }

  /** Replacing one row changes a signed sum by the difference of that row. */
  lemma {:induction false} SumIntUpdate<T>(s: seq<T>, i: nat, x: T, f: T -> int)
    requires i < |s|
    ensures SumInt(s[i := x], f) == SumInt(s, f) - f(s[i]) + f(x)
  {
    if i > 0 {
      assert s[i := x][1..] == s[1..][i - 1 := x];
      SumIntUpdate(s[1..], i - 1, x, f);
    }
  }

  /** The rows satisfying `p`, in their original order (a WHERE clause). */
  function Filter<T(!new)>(s: seq<T>, p: T -> bool): (r: seq<T>)
    ensures |r| <= |s|
    ensures forall i :: 0 <= i < |r| ==> p(r[i])
    ensures forall x :: x in r <==> x in s && p(x)
  {
    if |s| == 0 then []
    else if p(s[0]) then [s[0]] + Filter(s[1..], p)
    else Filter(s[1..], p)
  }

  lemma {:induction false} FilterAppend<T(!new)>(a: seq<T>, b: seq<T>, p: T -> bool)
    ensures Filter(a + b, p) == Filter(a, p) + Filter(b, p)
  {
    if |a| == 0 {
      assert a + b == b;
    } else {
      assert (a + b)[1..] == a[1..] + b;
      FilterAppend(a[1..], b, p);
    }
  }

  /** COUNT(*) of the rows satisfying `p`. */
  function Count<T(!new)>(s: seq<T>, p: T -> bool): nat
  {
    |Filter(s, p)|
  }

  /** Replacing one row changes a COUNT only by what that row contributes. */
  lemma CountUpdate<T(!new)>(s: seq<T>, i: nat, x: T, p: T -> bool)
    requires i < |s|
    ensures Count(s[i := x], p) + (if p(s[i]) then 1 else 0) == Count(s, p) + (if p(x) then 1 else 0)
  {
    var pre, post := s[..i], s[i + 1..];
    assert s == pre + [s[i]] + post;
    assert s[i := x] == pre + [x] + post;
    FilterAppend(pre + [s[i]], post, p);
    FilterAppend(pre, [s[i]], p);
    FilterAppend(pre + [x], post, p);
    FilterAppend(pre, [x], p);
    assert Filter([s[i]], p) == if p(s[i]) then [s[i]] else [];
    assert Filter([x], p) == if p(x) then [x] else [];
  }

  /** A COUNT over rows none of which match is 0. */
  lemma CountNone<T(!new)>(s: seq<T>, p: T -> bool)
    requires forall k :: 0 <= k < |s| ==> !p(s[k])
    ensures Count(s, p) == 0
  {
    if |Filter(s, p)| > 0 {
      var x := Filter(s, p)[0];
      assert x in Filter(s, p);
    }
  }

  ghost predicate SortedDesc<T>(s: seq<T>, key: T -> int)
  {
    forall i, j :: 0 <= i < j < |s| ==> key(s[i]) >= key(s[j])
  }

  ghost predicate Distinct<T>(s: seq<T>)
  {
    forall i, j :: 0 <= i < j < |s| ==> s[i] != s[j]
  }

  function InsertDesc<T>(x: T, s: seq<T>, key: T -> int): (r: seq<T>)
    requires SortedDesc(s, key)
    ensures SortedDesc(r, key)
    ensures multiset(r) == multiset(s) + multiset{x}
    ensures forall k :: 0 <= k < |r| ==> r[k] == x || r[k] in s
  {
    if |s| == 0 then [x]
    else if key(x) >= key(s[0]) then
      ConsSorted(x, s, key);
      [x] + s
    else
      var t := InsertDesc(x, s[1..], key);
      assert s == [s[0]] + s[1..];
      HeadBoundsRest(x, s, t, key);
      ConsSorted(s[0], t, key);
      [s[0]] + t
  }

  lemma ConsSorted<T>(h: T, t: seq<T>, key: T -> int)
    requires SortedDesc(t, key)
    requires forall k :: 0 <= k < |t| ==> key(t[k]) <= key(h)
    ensures SortedDesc([h] + t, key)
  {
    var r := [h] + t;
    forall i, j | 0 <= i < j < |r|
      ensures key(r[i]) >= key(r[j])
    {
      assert r[j] == t[j - 1];
      if i > 0 {
        assert r[i] == t[i - 1];
      }
    }
  }

  /** Every element inserted behind the head of a descending sequence has a
      key no greater than the head's. */
  lemma HeadBoundsRest<T>(x: T, s: seq<T>, t: seq<T>, key: T -> int)
    requires |s| > 0 && SortedDesc(s, key) && key(x) < key(s[0])
    requires forall k :: 0 <= k < |t| ==> t[k] == x || t[k] in s[1..]
    ensures forall k :: 0 <= k < |t| ==> key(t[k]) <= key(s[0])
  {
    forall k | 0 <= k < |t|
      ensures key(t[k]) <= key(s[0])
    {
      if t[k] != x {
        var m :| 0 <= m < |s[1..]| && s[1..][m] == t[k];
        assert s[1..][m] == s[m + 1];
      }
    }
  }

  /** ORDER BY key DESC. SQL leaves the order of equal keys open; this
      insertion sort fixes one. */
  function SortDesc<T>(s: seq<T>, key: T -> int): (r: seq<T>)
    ensures SortedDesc(r, key)
    ensures multiset(r) == multiset(s)
  {
    if |s| == 0 then []
    else
      assert s == [s[0]] + s[1..];
      InsertDesc(s[0], SortDesc(s[1..], key), key)
  }

  /** `LIMIT limit OFFSET offset` as SQLite evaluates it: a negative offset
      counts as 0 and a negative limit means no upper bound. */
  function Window<T>(s: seq<T>, offset: int, limit: int): (r: seq<T>)
    ensures limit >= 0 ==> |r| <= limit
    ensures var start := if offset < 0 then 0 else offset;
      && (start >= |s| ==> r == [])
      && (start < |s| ==> |r| == (if limit < 0 || start + limit > |s| then |s| - start else limit))
      && forall k :: 0 <= k < |r| ==> start + k < |s| && r[k] == s[start + k]
  {
    var start := if offset < 0 then 0 else offset;
    if start >= |s| then []
    else if limit < 0 || start + limit > |s| then s[start..]
    else s[start..start + limit]
  }

  lemma WindowKeepsOrder<T>(s: seq<T>, offset: int, limit: int, key: T -> int)
    requires SortedDesc(s, key)
    ensures SortedDesc(Window(s, offset, limit), key)
  {
    var r := Window(s, offset, limit);
    var start := if offset < 0 then 0 else offset;
    forall i, j | 0 <= i < j < |r|
      ensures key(r[i]) >= key(r[j])
    {
      assert r[i] == s[start + i] && r[j] == s[start + j];
    }
  }

  lemma {:induction false} DistinctHasSingleCopies<T>(s: seq<T>, x: T)
    requires Distinct(s)
    ensures multiset(s)[x] <= 1
  {
    if |s| > 0 {
      assert s == [s[0]] + s[1..];
      assert Distinct(s[1..]) by {
        forall i, j | 0 <= i < j < |s[1..]| ensures s[1..][i] != s[1..][j] {
          assert s[1..][i] == s[i + 1] && s[1..][j] == s[j + 1];
        }
      }
      DistinctHasSingleCopies(s[1..], x);
      if x == s[0] {
        assert x !in s[1..] by {
          forall k | 0 <= k < |s[1..]| ensures s[1..][k] != x {
            assert s[1..][k] == s[k + 1];
          }
        }
        assert multiset(s[1..])[x] == 0;
      }
    }
  }

  lemma RepeatedHasTwoCopies<T>(r: seq<T>, i: nat, j: nat)
    requires i < j < |r| && r[i] == r[j]
    ensures multiset(r)[r[i]] >= 2
  {
    assert r == r[..j] + [r[j]] + r[j + 1..];
    assert r[i] in r[..j];
    assert multiset(r[..j])[r[i]] >= 1;
  }

  /** A permutation of a sequence without repetitions has none either. */
  lemma PermutationKeepsDistinct<T>(s: seq<T>, r: seq<T>)
    requires Distinct(s) && multiset(r) == multiset(s)
    ensures Distinct(r)
  {
    forall i, j | 0 <= i < j < |r|
      ensures r[i] != r[j]
    {
      if r[i] == r[j] {
        RepeatedHasTwoCopies(r, i, j);
        DistinctHasSingleCopies(s, r[i]);
        assert false;
      }
    }
  }

  /** DISTINCT: the first occurrence of each value, in order. */
  function Dedup<T(==,!new)>(s: seq<T>): (r: seq<T>)
    ensures Distinct(r)
    ensures forall x :: x in r <==> x in s
  {
    if |s| == 0 then []
    else
      var t := Dedup(s[..|s| - 1]);
      assert s == s[..|s| - 1] + [s[|s| - 1]];
      if s[|s| - 1] in t then t else t + [s[|s| - 1]]
  }

  /** `s2` is `s` with exactly one row added at the end (an INSERT). */
  ghost predicate AppendedOne<T>(s: seq<T>, s2: seq<T>)
  {
    |s2| == |s| + 1 && s2[..|s|] == s
  }

  /** `s2` differs from `s` at most in row `i` (an UPDATE of one row). */
  ghost predicate SameExcept<T>(s: seq<T>, s2: seq<T>, i: nat)
  {
    |s2| == |s| && forall j :: 0 <= j < |s| && j != i ==> s2[j] == s[j]
  }

  /** Sequences with the same multiset have the same elements. */
  lemma SameElements<T>(s: seq<T>, r: seq<T>)
    requires multiset(s) == multiset(r)
    ensures forall x :: x in s <==> x in r
  {
    forall x ensures x in s <==> x in r {
      assert x in s <==> x in multiset(s);
      assert x in r <==> x in multiset(r);
    }
  }
}

=== FILE: stats.dfy ===
/** `getStats` in `transaction.controller.js`: spending by category since the
    start of the month, and income/expenses per calendar month for the six
    most recent months. */
module Stats {
  import opened Outcomes
  import opened Seqs
  import opened Schema

  datatype CategoryRow = CategoryRow(category: Category, total: nat, count: nat)

  datatype MonthRow = MonthRow(month: int, income: nat, expenses: nat)

  datatype StatsView = StatsView(byCategory: seq<CategoryRow>, monthly: seq<MonthRow>)

  const MonthsShown: nat := 6

  /** A completed debit/transfer_out entry of the account dated at or after `since`. */
  predicate SpentSince(e: Entry, accountId: nat, since: int)
  {
    e.accountId == accountId && IsExpense(e.kind) && e.status == Completed && e.createdAt >= since
  }

  predicate SpentOn(e: Entry, accountId: nat, since: int, c: Category)
  {
    SpentSince(e, accountId, since) && e.category == c
  }

  function SpentPart(e: Entry, accountId: nat, since: int, c: Category): nat
  {
    if SpentOn(e, accountId, since, c) then e.amount else 0
  }

  /** The aggregate row of one category: SUM(amount) and COUNT(*). */
  function RowFor(es: seq<Entry>, accountId: nat, since: int, c: Category): CategoryRow
  {
    CategoryRow(c,
      Sum(es, (e: Entry) => SpentPart(e, accountId, since, c)),
      Count(es, (e: Entry) => SpentOn(e, accountId, since, c)))
  }

  function RowTotal(r: CategoryRow): int
  {
    r.total
  }

  function CategoryOf(e: Entry): Category
  {
    e.category
  }

  /** The category of every entry of the month's spending, in log order. */
  function SpentCategoriesAll(es: seq<Entry>, accountId: nat, since: int): (cs: seq<Category>)
    ensures forall k :: 0 <= k < |cs| ==>
      exists j :: 0 <= j < |es| && SpentOn(es[j], accountId, since, cs[k])
    ensures forall j :: 0 <= j < |es| && SpentSince(es[j], accountId, since) ==> es[j].category in cs
  {
    if |es| == 0 then []
    else
      var rest := SpentCategoriesAll(es[1..], accountId, since);
      assert forall j :: 1 <= j < |es| ==> es[j] == es[1..][j - 1];
      if SpentSince(es[0], accountId, since) then [es[0].category] + rest else rest
  }

  /** The distinct categories of the month's spending (the groups). */
  function SpentCategories(es: seq<Entry>, accountId: nat, since: int): (cs: seq<Category>)
    ensures Distinct(cs)
    ensures forall k :: 0 <= k < |cs| ==>
      exists j :: 0 <= j < |es| && SpentOn(es[j], accountId, since, cs[k])
    ensures forall j :: 0 <= j < |es| && SpentSince(es[j], accountId, since) ==> es[j].category in cs
  {
    var all := SpentCategoriesAll(es, accountId, since);
    var cs := Dedup(all);
    assert forall k :: 0 <= k < |cs| ==> cs[k] in all;
    cs
  }

  /** A category with a spending entry has a non-zero count. */
  lemma CountPositive(es: seq<Entry>, accountId: nat, since: int, c: Category, j: nat)
    requires j < |es| && SpentOn(es[j], accountId, since, c)
    ensures RowFor(es, accountId, since, c).count > 0
  {
    assert es[j] in Filter(es, (e: Entry) => SpentOn(e, accountId, since, c));
  }

  /** The rows of the given categories, in the same order. */
  function RowsOf(es: seq<Entry>, accountId: nat, since: int, cs: seq<Category>): (rows: seq<CategoryRow>)
    ensures |rows| == |cs|
    ensures forall k :: 0 <= k < |cs| ==> rows[k] == RowFor(es, accountId, since, cs[k])
  {
    if |cs| == 0 then [] else [RowFor(es, accountId, since, cs[0])] + RowsOf(es, accountId, since, cs[1..])
  }

  lemma RowsOfFacts(es: seq<Entry>, accountId: nat, since: int, cs: seq<Category>)
    requires Distinct(cs)
    requires forall k :: 0 <= k < |cs| ==>
      exists j :: 0 <= j < |es| && SpentOn(es[j], accountId, since, cs[k])
    ensures var rows := RowsOf(es, accountId, since, cs);
      && Distinct(rows)
      && forall k :: 0 <= k < |rows| ==> rows[k].category == cs[k] && rows[k].count > 0
  {
    var rows := RowsOf(es, accountId, since, cs);
    forall k | 0 <= k < |rows| ensures rows[k].category == cs[k] && rows[k].count > 0 {
      var j :| 0 <= j < |es| && SpentOn(es[j], accountId, since, cs[k]);
      CountPositive(es, accountId, since, cs[k], j);
    }
  }

  /** `GROUP BY category ORDER BY total DESC` over the month's spending. */
  function ByCategory(es: seq<Entry>, accountId: nat, since: int): (rows: seq<CategoryRow>)
    ensures forall k :: 0 <= k < |rows| ==>
      rows[k] == RowFor(es, accountId, since, rows[k].category) && rows[k].count > 0
    ensures forall j :: 0 <= j < |es| && SpentSince(es[j], accountId, since) ==>
      exists k :: 0 <= k < |rows| && rows[k].category == es[j].category
    ensures forall i, j :: 0 <= i < j < |rows| ==> rows[i].category != rows[j].category
    ensures SortedDesc(rows, RowTotal)
  {
    var cs := SpentCategories(es, accountId, since);
    var unsorted := RowsOf(es, accountId, since, cs);
    RowsOfFacts(es, accountId, since, cs);
    var rows := SortDesc(unsorted, RowTotal);
    ByCategoryFacts(es, accountId, since, cs, unsorted, rows);
    rows
  }

  lemma ByCategoryFacts(es: seq<Entry>, accountId: nat, since: int, cs: seq<Category>, unsorted: seq<CategoryRow>, rows: seq<CategoryRow>)
    requires forall j :: 0 <= j < |es| && SpentSince(es[j], accountId, since) ==> es[j].category in cs
    requires |unsorted| == |cs|
    requires forall k :: 0 <= k < |cs| ==> unsorted[k] == RowFor(es, accountId, since, cs[k])
    requires Distinct(unsorted)
    requires forall k :: 0 <= k < |unsorted| ==> unsorted[k].category == cs[k] && unsorted[k].count > 0
    requires multiset(rows) == multiset(unsorted)
    ensures forall k :: 0 <= k < |rows| ==>
      rows[k] == RowFor(es, accountId, since, rows[k].category) && rows[k].count > 0
    ensures forall j :: 0 <= j < |es| && SpentSince(es[j], accountId, since) ==>
      exists k :: 0 <= k < |rows| && rows[k].category == es[j].category
    ensures forall i, j :: 0 <= i < j < |rows| ==> rows[i].category != rows[j].category
  {
    PermutationKeepsDistinct(unsorted, rows);
    forall k | 0 <= k < |rows|
      ensures rows[k] == RowFor(es, accountId, since, rows[k].category) && rows[k].count > 0
    {
      assert rows[k] in multiset(unsorted);
    }
    forall j | 0 <= j < |es| && SpentSince(es[j], accountId, since)
      ensures exists k :: 0 <= k < |rows| && rows[k].category == es[j].category
    {
      var g :| 0 <= g < |cs| && cs[g] == es[j].category;
      assert unsorted[g] in multiset(rows);
      var k :| 0 <= k < |rows| && rows[k] == unsorted[g];
    }
    forall i, j | 0 <= i < j < |rows| ensures rows[i].category != rows[j].category {
      assert rows[i] in multiset(unsorted) && rows[j] in multiset(unsorted);
    }
  }

  /** A completed entry of the account, whatever its date. */
  predicate Booked(e: Entry, accountId: nat)
  {
    e.accountId == accountId && e.status == Completed
  }

  /** A completed entry of the account booked in month `m`. */
  predicate InMonth(e: Entry, accountId: nat, monthOf: int -> int, m: int)
  {
    Booked(e, accountId) && monthOf(e.createdAt) == m
  }

  function IncomeIn(e: Entry, accountId: nat, monthOf: int -> int, m: int): nat
  {
    if Booked(e, accountId) && monthOf(e.createdAt) == m && IsIncome(e.kind) then e.amount else 0
  }

  function ExpensesIn(e: Entry, accountId: nat, monthOf: int -> int, m: int): nat
  {
    if Booked(e, accountId) && monthOf(e.createdAt) == m && IsExpense(e.kind) then e.amount else 0
  }

  /** The aggregate row of one month. */
  function MonthRowFor(es: seq<Entry>, accountId: nat, monthOf: int -> int, m: int): MonthRow
  {
    MonthRow(m,
      Sum(es, (e: Entry) => IncomeIn(e, accountId, monthOf, m)),
      Sum(es, (e: Entry) => ExpensesIn(e, accountId, monthOf, m)))
  }

  function Identity(m: int): int
  {
    m
  }

  /** The month of every completed entry of the account, in log order. */
  function BookedMonthsAll(es: seq<Entry>, accountId: nat, monthOf: int -> int): (ms: seq<int>)
    ensures forall k :: 0 <= k < |ms| ==>
      exists j :: 0 <= j < |es| && InMonth(es[j], accountId, monthOf, ms[k])
    ensures forall j :: 0 <= j < |es| && Booked(es[j], accountId) ==> monthOf(es[j].createdAt) in ms
  {
    if |es| == 0 then []
    else
      var rest := BookedMonthsAll(es[1..], accountId, monthOf);
      forall k | 0 <= k < |rest|
        ensures exists j :: 0 <= j < |es| && InMonth(es[j], accountId, monthOf, rest[k])
      {
        var j :| 0 <= j < |es[1..]| && InMonth(es[1..][j], accountId, monthOf, rest[k]);
        assert es[j + 1] == es[1..][j];
      }
      assert forall j :: 1 <= j < |es| ==> es[j] == es[1..][j - 1];
      if Booked(es[0], accountId) then [monthOf(es[0].createdAt)] + rest else rest
  }

  /** Sorted newest first without repetitions means strictly decreasing. */
  lemma StrictlyDescending(ms: seq<int>)
    requires SortedDesc(ms, Identity) && Distinct(ms)
    ensures forall i, j :: 0 <= i < j < |ms| ==> ms[i] > ms[j]
  {
    forall i, j | 0 <= i < j < |ms| ensures ms[i] > ms[j] {
      assert Identity(ms[i]) >= Identity(ms[j]);
    }
  }

  /** The distinct months holding a completed entry of the account, newest first. */
  function BookedMonths(es: seq<Entry>, accountId: nat, monthOf: int -> int): (ms: seq<int>)
    ensures forall i, j :: 0 <= i < j < |ms| ==> ms[i] > ms[j]
    ensures forall k :: 0 <= k < |ms| ==>
      exists j :: 0 <= j < |es| && InMonth(es[j], accountId, monthOf, ms[k])
    ensures forall j :: 0 <= j < |es| && Booked(es[j], accountId) ==> monthOf(es[j].createdAt) in ms
  {
    var all := BookedMonthsAll(es, accountId, monthOf);
    var keys := Dedup(all);
    var ms := SortDesc(keys, Identity);
    PermutationKeepsDistinct(keys, ms);
    StrictlyDescending(ms);
    SameElements(keys, ms);
    assert forall k :: 0 <= k < |ms| ==> ms[k] in all;
    ms
  }

  /** The rows of the given months, in the same order. */
  function MonthRowsOf(es: seq<Entry>, accountId: nat, monthOf: int -> int, ms: seq<int>): (rows: seq<MonthRow>)
    ensures |rows| == |ms|
    ensures forall k :: 0 <= k < |ms| ==> rows[k] == MonthRowFor(es, accountId, monthOf, ms[k]) && rows[k].month == ms[k]
  {
    if |ms| == 0 then [] else [MonthRowFor(es, accountId, monthOf, ms[0])] + MonthRowsOf(es, accountId, monthOf, ms[1..])
  }

  /** The six most recent of those months (all of them when there are fewer). */
  function RecentMonths(es: seq<Entry>, accountId: nat, monthOf: int -> int): (shown: seq<int>)
    ensures |shown| <= MonthsShown
    ensures forall i, j :: 0 <= i < j < |shown| ==> shown[i] > shown[j]
    ensures forall k :: 0 <= k < |shown| ==>
      exists j :: 0 <= j < |es| && InMonth(es[j], accountId, monthOf, shown[k])
    ensures forall j :: 0 <= j < |es| && Booked(es[j], accountId) ==>
      monthOf(es[j].createdAt) in shown
      || (|shown| == MonthsShown && monthOf(es[j].createdAt) < shown[MonthsShown - 1])
  {
    var ms := BookedMonths(es, accountId, monthOf);
    if |ms| <= MonthsShown then ms
    else
      forall j | 0 <= j < |es| && Booked(es[j], accountId)
        ensures monthOf(es[j].createdAt) in ms[..MonthsShown] || monthOf(es[j].createdAt) < ms[MonthsShown - 1]
      {
        PrefixOrOlder(ms, monthOf(es[j].createdAt));
      }
      ms[..MonthsShown]
  }

  /** In a strictly decreasing sequence, a member is among the first six
      or older than the sixth. */
  lemma PrefixOrOlder(ms: seq<int>, m: int)
    requires |ms| > MonthsShown && m in ms
    requires forall i, j :: 0 <= i < j < |ms| ==> ms[i] > ms[j]
    ensures m in ms[..MonthsShown] || m < ms[MonthsShown - 1]
  {
    var p :| 0 <= p < |ms| && ms[p] == m;
    if p < MonthsShown {
      assert ms[..MonthsShown][p] == m;
    }
  }

  /** `GROUP BY strftime('%Y-%m', created_at) ORDER BY month DESC LIMIT 6`.
      `monthOf` stands for strftime: it maps a timestamp to its calendar
      month, numbered so that later months are larger. */
  function Monthly(es: seq<Entry>, accountId: nat, monthOf: int -> int): (rows: seq<MonthRow>)
    ensures var shown := RecentMonths(es, accountId, monthOf);
      && |rows| == |shown|
      && forall k :: 0 <= k < |rows| ==> rows[k].month == shown[k] && rows[k] == MonthRowFor(es, accountId, monthOf, shown[k])
  {
    MonthRowsOf(es, accountId, monthOf, RecentMonths(es, accountId, monthOf))
  }

  /** `getStats`; `monthStart` is the first instant of the current month. */
  function GetStats(st: Store, uid: nat, monthStart: int, monthOf: int -> int): (r: Result<StatsView>)
    ensures r.Err? <==> AccountOf(st, uid).None?
    ensures r.Err? ==> r.error == AccountNotFound
    ensures r.Ok? ==>
      var a := st.accounts[AccountOf(st, uid).value];
      r.value.byCategory == ByCategory(st.entries, a.id, monthStart)
      && r.value.monthly == Monthly(st.entries, a.id, monthOf)
  {
    match AccountOf(st, uid)
    case None => Err(AccountNotFound)
    case Some(i) =>
      var a := st.accounts[i];
      Ok(StatsView(ByCategory(st.entries, a.id, monthStart), Monthly(st.entries, a.id, monthOf)))
  }
}

=== FILE: text.dfy ===
/** The JavaScript string operations the controllers use to build
    identifiers: `String(n)` of a non-negative integer, `padStart`,
    `slice`, and `toUpperCase` (ASCII letters only). */
module Text {

  predicate IsDigit(c: char)
  {
    '0' <= c <= '9'
  }

  predicate AllDigits(s: string)
  {
    forall i :: 0 <= i < |s| ==> IsDigit(s[i])
  }

  function Pow10(k: nat): (r: nat)
    ensures r >= 1
  {
    if k == 0 then 1 else 10 * Pow10(k - 1)
  }

  function DigitChar(d: nat): (c: char)
    requires d < 10
    ensures IsDigit(c) && c as int - '0' as int == d
  {
    ('0' as int + d) as char
  }

  function DigitValue(c: char): (d: nat)
    requires IsDigit(c)
    ensures d < 10 && DigitChar(d) == c
  {
    c as int - '0' as int
  }

  /** The number a string of decimal digits denotes. */
  function ValueOf(s: string): nat
    requires AllDigits(s)
  {
    if |s| == 0 then 0 else 10 * ValueOf(s[..|s| - 1]) + DigitValue(s[|s| - 1])
  }

  /** `String(n)` for an integer n >= 0: no sign, no leading zero. */
  function DecimalString(n: nat): (s: string)
    ensures 1 <= |s| && AllDigits(s)
    ensures |s| > 1 ==> s[0] != '0'
  {
    if n < 10 then [DigitChar(n)] else DecimalString(n / 10) + [DigitChar(n % 10)]
  }

  /** Reading back the digits `String(n)` writes gives n. */
  lemma {:induction false} DecimalRoundTrip(n: nat)
    ensures ValueOf(DecimalString(n)) == n
  {
    if n >= 10 {
      var s := DecimalString(n);
      assert s[..|s| - 1] == DecimalString(n / 10);
      DecimalRoundTrip(n / 10);
    }
  }

  /** `String(n)` has at most k digits when n < 10^k. */
  lemma {:induction false} DecimalLength(n: nat, k: nat)
    requires 1 <= k && n < Pow10(k)
    ensures |DecimalString(n)| <= k
  {
    if n >= 10 {
      assert Pow10(1) == 10;
      DecimalLength(n / 10, k - 1);
    }
  }

  lemma LastDigit(m: nat)
    ensures var s := DecimalString(m); s[|s| - 1] == DigitChar(m % 10)
  {
  }

  lemma TwoDigitValue(a: nat, b: nat)
    requires a < 10 && b < 10
    ensures ValueOf([DigitChar(a), DigitChar(b)]) == 10 * a + b
  {
    var t := [DigitChar(a), DigitChar(b)];
    var u := t[..1];
    assert u == [DigitChar(a)];
    assert u[..0] == [];
    assert ValueOf(u) == 10 * ValueOf(u[..0]) + DigitValue(u[0]);
    assert DigitValue(DigitChar(a)) == a;
    assert ValueOf(u) == a;
    assert ValueOf(t) == 10 * ValueOf(u) + DigitValue(t[1]);
    assert DigitValue(DigitChar(b)) == b;
  }

  lemma HundredsRemainder(n: nat)
    ensures 10 * ((n / 10) % 10) + n % 10 == n % 100
  {
    var q, b := n / 10, n % 10;
    var p, a := q / 10, q % 10;
    assert n == 100 * p + (10 * a + b);
    assert 0 <= 10 * a + b < 100;
  }

  /** The last two characters of `String(n)` for n >= 10 denote n % 100. */
  lemma LastTwoDigits(n: nat)
    requires n >= 10
    ensures var s := DecimalString(n);
      |s| >= 2 && ValueOf(s[|s| - 2..]) == n % 100
  {
    var s := DecimalString(n);
    var h := DecimalString(n / 10);
    var a, b := (n / 10) % 10, n % 10;
    assert s == h + [DigitChar(b)];
    LastDigit(n / 10);
    assert h[|h| - 1] == DigitChar(a);
    assert |s| == |h| + 1;
    assert s[|s| - 2] == DigitChar(a) && s[|s| - 1] == DigitChar(b);
    var t := s[|s| - 2..];
    assert |t| == 2 && t[0] == DigitChar(a) && t[1] == DigitChar(b);
    assert t == [DigitChar(a), DigitChar(b)];
    TwoDigitValue(a, b);
    HundredsRemainder(n);
  }

  /** `s.padStart(width, fill)`. */
  function PadStart(s: string, width: nat, fill: char): (r: string)
    ensures |r| == if |s| >= width then |s| else width
    ensures r[|r| - |s|..] == s
    ensures forall i :: 0 <= i < |r| - |s| ==> r[i] == fill
  {
    if |s| >= width then s else seq(width - |s|, _ => fill) + s
  }

  /** Leading zeros do not change the value of a digit string. */
  lemma {:induction false} LeadingZeros(z: string, s: string)
    requires forall i :: 0 <= i < |z| ==> z[i] == '0'
    requires AllDigits(s)
    ensures AllDigits(z + s) && ValueOf(z + s) == ValueOf(s)
  {
    if |s| == 0 {
      assert z + s == z;
      ZerosAreZero(z);
    } else {
      assert (z + s)[..|z + s| - 1] == z + s[..|s| - 1];
      LeadingZeros(z, s[..|s| - 1]);
    }
  }

  lemma {:induction false} ZerosAreZero(z: string)
    requires forall i :: 0 <= i < |z| ==> z[i] == '0'
    ensures AllDigits(z) && ValueOf(z) == 0
  {
    if |z| > 0 {
      ZerosAreZero(z[..|z| - 1]);
    }
  }

  /** `String(n).padStart(width, '0')` for n < 10^width: exactly `width`
      digits that read back as n. */
  function ZeroPadded(n: nat, width: nat): (r: string)
    requires 1 <= width && n < Pow10(width)
    ensures |r| == width && AllDigits(r) && ValueOf(r) == n
  {
    var d := DecimalString(n);
    DecimalLength(n, width);
    DecimalRoundTrip(n);
    var r := PadStart(d, width, '0');
    assert r == r[..|r| - |d|] + d;
    LeadingZeros(r[..|r| - |d|], d);
    r
  }

  /** `s.slice(0, n)`: at most the first n characters, counted in code points. */
  function TakeAtMost(s: string, n: nat): (r: string)
    ensures |r| <= n && |r| <= |s|
    ensures |r| == n || r == s
    ensures r == s[..|r|]
  {
    if |s| <= n then s else s[..n]
  }

  /** `s.slice(-n)` for n >= 1: at most the last n characters. */
  function TakeLast(s: string, n: nat): (r: string)
    requires n >= 1
    ensures |r| <= n && |r| <= |s|
    ensures |r| == n || r == s
    ensures r == s[|s| - |r|..]
  {
    if |s| <= n then s else s[|s| - n..]
  }

  function UpperChar(c: char): (u: char)
  {
    if 'a' <= c <= 'z' then (c as int - 32) as char else c
  }

  /** `s.toUpperCase()` restricted to ASCII letters; every other character
      is kept as is. */
  function Upper(s: string): (r: string)
    ensures |r| == |s|
    ensures forall i :: 0 <= i < |s| ==> r[i] == UpperChar(s[i])
  {
    seq(|s|, i requires 0 <= i < |s| => UpperChar(s[i]))
  }
}

=== FILE: transactions.dfy ===
/** The transfer and request-money engine and the transaction listing of
    `transaction.controller.js`. */
module Transactions {
  import opened Outcomes
  import opened Seqs
  import opened Schema
  import opened Pagination

  const TransferLabel: string := "Virement sortant"
  const RequestLabel: string := "Demande de paiement"
  const TransferKind: string := "transaction"
  const TransferTitle: string := "Virement envoyé"

  /** The notification text of a transfer, `euros` being the amount as the
      request spelled it. */
  function TransferMessage(euros: string): (m: string)
    ensures |m| == |"Virement de "| + |euros| + |"€ effectué"|
    ensures m[..|"Virement de "|] == "Virement de "
    ensures m[|m| - |"€ effectué"|..] == "€ effectué"
    ensures m[|"Virement de "|..|m| - |"€ effectué"|] == euros
  {
    "Virement de " + euros + "€ effectué"
  }

  /** The optional query filters of the listing. `kind` and `category` are
      the raw query strings (an unknown one simply matches nothing); the
      dates are None when the parameter is missing or empty. */
  datatype TxFilter = TxFilter(
    kind: Option<string>,
    category: Option<string>,
    dateFrom: Option<int>,
    dateTo: Option<int>)

  datatype TxPage = TxPage(items: seq<Entry>, info: PageInfo)

  /** The WHERE clause the listing builds: the caller's account, then each
      filter that was supplied. */
  predicate Selected(e: Entry, accountId: nat, f: TxFilter)
  {
    && e.accountId == accountId
    && (Truthy(f.kind).None? || TypeName(e.kind) == f.kind.value)
    && (Truthy(f.category).None? || CategoryName(e.category) == f.category.value)
    && (f.dateFrom.None? || e.createdAt >= f.dateFrom.value)
    && (f.dateTo.None? || e.createdAt <= f.dateTo.value)
  }

  function Matching(es: seq<Entry>, accountId: nat, f: TxFilter): (r: seq<Entry>)
    ensures forall e :: e in r <==> e in es && Selected(e, accountId, f)
  {
    Filter(es, (e: Entry) => Selected(e, accountId, f))
  }

  function CreatedAt(e: Entry): int
  {
    e.createdAt
  }

  /** The matching entries newest first: ORDER BY created_at DESC. */
  function Ordered(es: seq<Entry>, accountId: nat, f: TxFilter): (r: seq<Entry>)
    ensures multiset(r) == multiset(Matching(es, accountId, f))
    ensures SortedDesc(r, CreatedAt)
  {
    SortDesc(Matching(es, accountId, f), CreatedAt)
  }

  /** `getTransactions`: the caller's entries that pass the filters, newest
      first, one LIMIT/OFFSET window of them, with the total count and the
      number of pages as the code computes them. A negative `limit` request
      lists every match on one page. */
  function ListTransactions(st: Store, uid: nat, page: Option<int>, limit: Option<int>, f: TxFilter): (r: Result<TxPage>)
    ensures AccountOf(st, uid).None? <==> r == Err(AccountNotFound)
    ensures r.Ok? ==> AccountOf(st, uid).Some?
    ensures r.Err? ==> r.error == AccountNotFound
    ensures r.Ok? ==>
      var acc := st.accounts[AccountOf(st, uid).value];
      var items := r.value.items;
      var info := r.value.info;
      && info.page == PageNumber(page) && info.limit == PageLimitAsWritten(limit)
      && info.total == |Matching(st.entries, acc.id, f)|
      && info.pages == ReportedPages(info.total, info.limit)
      && items == Window(Ordered(st.entries, acc.id, f), Offset(info.page, info.limit), info.limit)
      && (forall k :: 0 <= k < |items| ==> items[k] in st.entries && Selected(items[k], acc.id, f))
      && SortedDesc(items, CreatedAt)
      && (info.limit >= 1 ==> |items| <= info.limit)
      && (info.limit < 0 && info.page >= 1 ==> multiset(items) == multiset(Matching(st.entries, acc.id, f)))
  {
    match AccountOf(st, uid)
    case None => Err(AccountNotFound)
    case Some(i) =>
      var ordered := Ordered(st.entries, st.accounts[i].id, f);
      var (items, info) := Paginate(ordered, page, limit);
      assert |multiset(ordered)| == |multiset(Matching(st.entries, st.accounts[i].id, f))|;
      WindowKeepsOrder(ordered, Offset(info.page, info.limit), info.limit, CreatedAt);
      forall k | 0 <= k < |items|
        ensures items[k] in st.entries && Selected(items[k], st.accounts[i].id, f)
      {
        assert items[k] in multiset(ordered);
      }
      Ok(TxPage(items, info))
  }

  /** Every matching entry can be reached: with a page size l in 1..100, the
      k-th newest match is row k % l of page k / l + 1, a page within the
      count reported. */
  lemma EveryMatchOnItsPage(st: Store, uid: nat, f: TxFilter, l: int, k: nat)
    requires AccountOf(st, uid).Some? && 1 <= l <= MaxLimit
    requires k < |Matching(st.entries, st.accounts[AccountOf(st, uid).value].id, f)|
    ensures var r := ListTransactions(st, uid, Some(k / l + 1), Some(l), f);
      && r.Ok?
      && k / l + 1 <= r.value.info.pages
      && k % l < |r.value.items|
      && r.value.items[k % l] == Ordered(st.entries, st.accounts[AccountOf(st, uid).value].id, f)[k]
  {
    var acc := st.accounts[AccountOf(st, uid).value];
    var ordered := Ordered(st.entries, acc.id, f);
    assert |multiset(ordered)| == |multiset(Matching(st.entries, acc.id, f))|;
    var p := k / l + 1;
    assert PageNumber(Some(p)) == p;
    assert PageLimitAsWritten(Some(l)) == l;
    var r := ListTransactions(st, uid, Some(p), Some(l), f);
    assert r.value.items == Window(ordered, Offset(p, l), l);
    assert r.value.info.pages == PageCount(|ordered|, l);
    RowOnItsPage(ordered, l, k);
  }

  /** `getTransaction`: an entry is returned only when it belongs to the
      caller's account; one of another account is reported as missing. */
  function GetTransaction(st: Store, uid: nat, tid: nat): (r: Result<Entry>)
    ensures AccountOf(st, uid).None? ==> r == Err(AccountNotFound)
    ensures AccountOf(st, uid).Some? ==>
      var acc := st.accounts[AccountOf(st, uid).value];
      && (r.Ok? ==> r.value in st.entries && r.value.id == tid && r.value.accountId == acc.id)
      && (r.Err? ==> r.error == TransactionNotFound)
      && (r.Err? <==> forall j :: 0 <= j < |st.entries| ==> !(st.entries[j].id == tid && st.entries[j].accountId == acc.id))
  {
    match AccountOf(st, uid)
    case None => Err(AccountNotFound)
    case Some(i) =>
      match EntryOf(st, st.accounts[i].id, tid)
      case None => Err(TransactionNotFound)
      case Some(j) => Ok(st.entries[j])
  }

  /** What a successful transfer of `amount` from account row `i` leaves
      behind: that balance lowered by the amount, one completed `transfer_out`
      entry and one unread `transaction` notification to the sender appended,
      every other table untouched. */
  ghost predicate TransferPosted(st: Store, st2: Store, uid: nat, i: nat, amount: nat, iban: string, description: string, euros: string, now: int)
    requires i < |st.accounts|
  {
    var a := st.accounts[i];
    && SameExcept(st.accounts, st2.accounts, i)
    && st2.accounts[i] == a.(balance := a.balance - amount)
    && AppendedOne(st.entries, st2.entries)
    && st2.entries[|st.entries|]
       == Entry(st.next.entries, a.id, TransferOut, amount, DefaultCurrency, description,
                Category.Transfer, None, Some(iban), Completed, now)
    && AppendedOne(st.notifications, st2.notifications)
    && st2.notifications[|st.notifications|]
       == Notification(st.next.notifications, uid, TransferKind, TransferTitle, TransferMessage(euros), false, now)
    && st2.users == st.users && st2.goals == st.goals && st2.cards == st.cards
    && st2.referrals == st.referrals
    && st2.next == st.next.(entries := st.next.entries + 1, notifications := st.next.notifications + 1)
  }

  /** `transfer`. The account must be active (checked first), then hold at
      least `amount` cents; `euros` is the request's amount as it is printed
      in the notification message. */
  function Transfer(st: Store, uid: nat, amount: int, iban: string, description: Option<string>, euros: string, now: int): (r: Result<Store>)
    requires amount >= 1
    ensures AccountOf(st, uid).None? ==> r == Err(AccountNotFound)
    ensures AccountOf(st, uid).Some? ==>
      var i := AccountOf(st, uid).value;
      var a := st.accounts[i];
      && (a.status != Active ==> r == Err(AccountInactive))
      && (a.status == Active && a.balance < amount ==> r == Err(InsufficientFunds))
      && (r.Ok? <==> a.status == Active && a.balance >= amount)
      && (r.Ok? ==> TransferPosted(st, r.value, uid, i, amount, iban, Coalesce(Truthy(description), TransferLabel), euros, now))
  {
    match AccountOf(st, uid)
    case None => Err(AccountNotFound)
    case Some(i) =>
      var a := st.accounts[i];
      if a.status != Active then Err(AccountInactive)
      else if a.balance < amount then Err(InsufficientFunds)
      else
        var e := Entry(st.next.entries, a.id, TransferOut, amount, DefaultCurrency,
                       Coalesce(Truthy(description), TransferLabel), Category.Transfer, None, Some(iban), Completed, now);
        var n := Notification(st.next.notifications, uid, TransferKind, TransferTitle, TransferMessage(euros), false, now);
        Ok(st.(accounts := st.accounts[i := a.(balance := a.balance - amount)],
               entries := st.entries + [e],
               notifications := st.notifications + [n],
               next := st.next.(entries := st.next.entries + 1, notifications := st.next.notifications + 1)))
  }

  /** `requestMoney`: records a pending incoming transfer naming `email` and
      moves no money. No status check, no notification. */
  function RequestMoney(st: Store, uid: nat, amount: int, email: string, description: Option<string>, now: int): (r: Result<Store>)
    requires amount >= 1
    ensures r.Err? <==> AccountOf(st, uid).None?
    ensures r.Err? ==> r.error == AccountNotFound
    ensures r.Ok? ==>
      var a := st.accounts[AccountOf(st, uid).value];
      && r.value.accounts == st.accounts
      && AppendedOne(st.entries, r.value.entries)
      && r.value.entries[|st.entries|]
         == Entry(st.next.entries, a.id, TransferIn, amount, DefaultCurrency, Coalesce(Truthy(description), RequestLabel),
                  Category.Transfer, Some(email), None, Pending, now)
      && r.value.users == st.users && r.value.goals == st.goals && r.value.cards == st.cards
      && r.value.notifications == st.notifications && r.value.referrals == st.referrals
      && r.value.next == st.next.(entries := st.next.entries + 1)
  {
    match AccountOf(st, uid)
    case None => Err(AccountNotFound)
    case Some(i) =>
      var e := Entry(st.next.entries, st.accounts[i].id, TransferIn, amount, DefaultCurrency,
                     Coalesce(Truthy(description), RequestLabel), Category.Transfer, Some(email), None, Pending, now);
      Ok(st.(entries := st.entries + [e], next := st.next.(entries := st.next.entries + 1)))
  }
}
